=== FILE: README.md ===
# MyCities store — a Dafny model

This project models `MyCitiesStoreService`, the client-side store of the MyCities Angular application:

- the single-flight loader (`ensureLoaded`, `refresh`, and the success and failure paths of the one fetch);
- the coordinate check that decides which records are kept;
- the two filter selections and `clearFilters`;
- the base-map selection;
- the `filteredCities$` view;
- `buildFilterLists` and everything it relies on:
  - `normalizeToken`;
  - `splitMulti`, with JavaScript's `split(/[,;/|]+/)`, `trim` and `filter(Boolean)` written out;
  - `durationSortKey` and its five patterns;
  - the comparators `stayDurationSort` and `decadeSort`;
  - JavaScript's insertion-ordered `Set` and stable `Array.prototype.sort`.

How the store is represented:

- All the store's subjects become one immutable `Store` record.
- Each public method, and each way the fetch can complete, is a pure transition on that record.
- The record carries two things the source keeps implicitly:
  - `loadOnce`, which fetch `_loadOnce$` currently stands for;
  - `fetches`, a count of calls to the HTTP collaborator.
- Because of that count, "at most one fetch per burst of calls" and "refresh always issues exactly one fetch" can be stated as contracts.

Modules (one file each):

| file | module | models |
|---|---|---|
| `wrappers.dfy` | `Wrappers` | `Option` |
| `text.dfy` | `Text` | JavaScript white space, `trim`, `normalizeToken`, `parseInt`'s digit reading, ASCII `toLowerCase` |
| `seqs.dfy` | `Seqs` | `filter`, insertion-ordered `Set` (`AddAll`, `Dedup`), flattening |
| `orders.dfy` | `Orders` | three-way comparison results and the lexicographic tie-breaker |
| `sorting.dfy` | `Sorting` | stable insertion sort by a total preorder; uniqueness of sorted arrangements |
| `splitter.dfy` | `Splitter` | `splitMulti` |
| `duration.dfy` | `Duration` | `durationSortKey`, `stayDurationSort` |
| `decades.dfy` | `Decades` | `parseInt(token, 10)`, `decadeSort`, and the order the decade list is sorted by |
| `cities.dfy` | `Cities` | the city record, `Number(...)` on coordinates, `isValidCoordinate` |
| `filterlists.dfy` | `FilterLists` | `buildFilterLists` |
| `filters.dfy` | `Filters` | the filter setters' normalisation and the `filteredCities$` predicate |
| `store.dfy` | `Store` | the state record, `ensureLoaded`, `refresh`, completions, setters, reachable-state invariant |
| `examples.dfy` | `Examples` | the concrete cases of the store's unit tests, derived from the general lemmas |

Where the code and the store's documented intent differ, the model follows the code in the first two cases below. In the last two it models the code as written and the intended behaviour side by side, and the rest of the model uses the intended one (see Findings):

- **Completions are not tied to the fetch that issued them.** A fetch issued before `refresh()` can still complete afterwards. When it does, its `tap`, `catchError` and `finalize` callbacks still act on the store: they write the cities and lists, clear `_loadOnce$` on failure, and lower `loading`. `OnSuccess` and `OnFailure` model exactly that.
- **An empty load is kept.** `ensureLoaded` checks `_loadOnce$`, not "a fetch is running". So after a successful load that kept no record, later calls share the completed fetch again and issue no new one (`Store.EmptyLoadIsKept`).
- **`null` coordinates are accepted.** `isValidCoordinate` accepts `null`, because `Number(null)` is `0`. `Cities.IsValidCoordinateAsWritten` is the check as written. The store keeps records by the intended check, `Cities.IsValidCoordinate`, which refuses `null` as well.
- **The first subscribers receive the unfiltered list.** The `tap` that stores the valid records passes on the array as received. So the callers that share the fetch receive every record, invalid coordinates included, while a later call gets the valid records from memory. The store's own loading test expects the valid records only. `Store.Received` is the delivery as written; `Store.ReceivedCorrected` is the intended delivery.

## Model

Source paths are relative to the repository root. `store.service.ts` lines are in `MyCitiesNg/src/app/core/services/my-cities-store.service.ts`; the `Examples` rows cite its unit tests in `my-cities-store.service.spec.ts` beside it.

| member | source | states |
|---|---|---|
| Store.EnsureLoaded | MyCitiesNg/src/app/core/services/my-cities-store.service.ts:74-123 | The reply is the cached list exactly when cities are in memory, and then nothing changes. When no cities are in memory but `_loadOnce$` holds a fetch, the reply shares that fetch and the store is unchanged. Otherwise a new fetch is started, kept in `_loadOnce$` and shared; the reply names that fetch, the one numbered by how many fetches came before it. The fetch count rises by one exactly when no cities are cached and no fetch is kept; a new fetch raises `loading` and clears the error. No other field changes. |
| Store.OnSuccess | MyCitiesNg/src/app/core/services/my-cities-store.service.ts:92-116 | A successful fetch caches exactly the valid records and rebuilds both option lists from them. `loading` ends. `_loadOnce$`, the filters, the error and the fetch count are untouched. |
| Store.OnFailure | MyCitiesNg/src/app/core/services/my-cities-store.service.ts:109-116 | A failed fetch publishes "Failed to load cities", forgets `_loadOnce$` and ends `loading`. Nothing else changes. |
| Store.Refresh | MyCitiesNg/src/app/core/services/my-cities-store.service.ts:133-140 | Refresh issues exactly one new fetch, whatever was cached. It empties the cities and both lists, raises `loading`, clears the error, and keeps both filters and the base map. |
| Store.SetStayDurationFilter | MyCitiesNg/src/app/core/services/my-cities-store.service.ts:142-146 | The stored stay selection is the normalised value; every other field is unchanged. |
| Store.SetDecadeFilter | MyCitiesNg/src/app/core/services/my-cities-store.service.ts:148-152 | The stored decade selection is the normalised value; every other field is unchanged. |
| Store.ClearFilters | MyCitiesNg/src/app/core/services/my-cities-store.service.ts:154-158 | Both selections become "no filter" and nothing else changes. |
| Store.SetBasemapMode | MyCitiesNg/src/app/core/services/my-cities-store.service.ts:160-163 | The base map becomes the given mode and nothing else changes. |
| Store.FilteredView | MyCitiesNg/src/app/core/services/my-cities-store.service.ts:37-67 | The view of a store is an order-preserving subsequence of its cached cities. |
| Store.InitialInv | MyCitiesNg/src/app/core/services/my-cities-store.service.ts:13-35 | The store as constructed satisfies the reachable-state invariant. |
| Store.StepInv | MyCitiesNg/src/app/core/services/my-cities-store.service.ts:74-163 | Every transition keeps the invariant: selections are normalised, cached records have valid coordinates, the option lists are those built from the cache, a kept fetch was issued, and the only error is the load error. |
| Store.RunInv | MyCitiesNg/src/app/core/services/my-cities-store.service.ts:74-163 | Any sequence of events from an invariant store leads to an invariant store. |
| Store.SingleFlight | MyCitiesNg/src/app/core/services/my-cities-store.service.ts:83-122 | Any number of `ensureLoaded` calls before a completion all get the same reply and issue at most one fetch. |
| Store.RetryAfterFailure | MyCitiesNg/src/app/core/services/my-cities-store.service.ts:109-115 | With no cities cached, the next call after a failed fetch issues a fresh fetch and clears the error. |
| Store.CachedAfterSuccess | MyCitiesNg/src/app/core/services/my-cities-store.service.ts:76-81 | After a load that kept at least one record, calls are answered from memory without a fetch. |
| Store.EmptyLoadIsKept | MyCitiesNg/src/app/core/services/my-cities-store.service.ts:83-87 | After a load that kept no record, calls share the completed fetch again and issue none. |
| Store.AllValidKept | MyCitiesNg/src/app/core/services/my-cities-store.service.ts:95-107 | A load whose records all have usable coordinates caches all of them in order and builds the lists from all of them. |
| Store.FirstLoadUnfiltered | MyCitiesNg/src/app/core/services/my-cities-store.service.ts:92-108 | As written, the callers that share the first fetch receive every delivered record, an invalid one included. A call after a load that kept some record receives only the valid records, so the two lists differ. |
| Store.FirstLoadFiltered | MyCitiesNg/src/app/core/services/my-cities-store.service.ts:92-108 | With the intended delivery, callers before and after the fetch completes receive the same list: exactly the received records with valid coordinates, the list the store keeps. |
| Store.ViewIsValid | MyCitiesNg/src/app/core/services/my-cities-store.service.ts:37-98 | In every reachable store, every record in the view has valid coordinates. |
| Cities.ToNumber | MyCitiesNg/src/app/core/services/my-cities-store.service.ts:125-128 | `Number(...)` never yields `null` or `undefined`, and leaves numbers unchanged. |
| Cities.NullCoordinateAccepted | MyCitiesNg/src/app/core/services/my-cities-store.service.ts:125-128 | The check as written accepts a `null` coordinate; the intended check refuses it. |
| Cities.IsValidCoordinateCorrected | MyCitiesNg/src/app/core/services/my-cities-store.service.ts:125-128 | The intended check is the check as written with `null` refused as well, so it accepts only finite numbers. The two agree on every coordinate except `null`. |
| Cities.ValidCities | MyCitiesNg/src/app/core/services/my-cities-store.service.ts:95-98 | The kept records are no more than those received, and each has valid latitude and longitude. |
| Cities.ValidCitiesExactly | MyCitiesNg/src/app/core/services/my-cities-store.service.ts:95-98 | A record is kept exactly when it was received and both coordinates are valid. Kept records stay in order. |
| Cities.DroppedCount | MyCitiesNg/src/app/core/services/my-cities-store.service.ts:99-103 | The count in the warning equals the number of records with an invalid coordinate. |
| Filters.NormalizeFilter | MyCitiesNg/src/app/core/services/my-cities-store.service.ts:142-152 | A setter stores "no filter" exactly when the value is missing or blank. Otherwise it stores a non-empty trimmed string. |
| Filters.NormalizeFilterIdempotent | MyCitiesNg/src/app/core/services/my-cities-store.service.ts:142-152 | Storing a stored selection again changes nothing. |
| Filters.NormalizeFilterFixed | MyCitiesNg/src/app/core/services/my-cities-store.service.ts:142-152 | The values a setter leaves unchanged are exactly "no filter" and the non-empty trimmed strings. |
| Filters.NormalizeFilterPadding | MyCitiesNg/src/app/core/services/my-cities-store.service.ts:142-152 | White space around a selection does not change what is stored. |
| Filters.RecordDecades | MyCitiesNg/src/app/core/services/my-cities-store.service.ts:54-61 | The view's guard on an empty trimmed field gives the same tokens as `splitMulti` of the field. |
| Filters.FilteredCities | MyCitiesNg/src/app/core/services/my-cities-store.service.ts:44-67 | With no cities (`null`) the view is empty; otherwise it is no longer than the cities. |
| Filters.FilteredExactly | MyCitiesNg/src/app/core/services/my-cities-store.service.ts:51-66 | A record is in the view exactly when it is loaded and passes both the stay test and the decade-membership test. |
| Filters.FilteredInOrder | MyCitiesNg/src/app/core/services/my-cities-store.service.ts:51-66 | The view keeps the loaded order. |
| Filters.FilteredNoFilters | MyCitiesNg/src/app/core/services/my-cities-store.service.ts:56-63 | With no selection the view is every loaded record. |
| Filters.FilteredMissingField | MyCitiesNg/src/app/core/services/my-cities-store.service.ts:53-63 | A record with no stay label fails a stay selection, and one with no decades fails a decade selection. |
| Text.NormalizeToken | MyCitiesNg/src/app/core/services/my-cities-store.service.ts:165-168 | The result has no white space at either end, and a missing value gives the empty string. |
| Text.TrimPadded | MyCitiesNg/src/app/core/services/my-cities-store.service.ts:165-168 | Trimming removes any white space added around a string. |
| Text.TrimUnique | MyCitiesNg/src/app/core/services/my-cities-store.service.ts:165-168 | Cutting white space from both ends so that neither end is white space has one outcome, the trimmed string. |
| Text.TrimEmpty | MyCitiesNg/src/app/core/services/my-cities-store.service.ts:171-177 | A string trims to nothing exactly when it is all white space. |
| Text.LowerTrim | MyCitiesNg/src/app/core/services/my-cities-store.service.ts:206 | Lower-casing and trimming commute. |
| Splitter.SplitRuns | MyCitiesNg/src/app/core/services/my-cities-store.service.ts:179 | Splitting gives at least one piece, and no piece contains a separator. |
| Splitter.SplitRunsConcat | MyCitiesNg/src/app/core/services/my-cities-store.service.ts:179 | The pieces, joined, are the input minus its separators: nothing else is lost or reordered. |
| Splitter.SplitMulti | MyCitiesNg/src/app/core/services/my-cities-store.service.ts:171-182 | A field that trims to nothing has no tokens. Every token is non-empty, trimmed and free of `, ; / \|`. |
| Splitter.SplitMultiInOrder | MyCitiesNg/src/app/core/services/my-cities-store.service.ts:178-181 | The tokens appear in the order of the pieces they come from. |
| Splitter.SplitMultiMembers | MyCitiesNg/src/app/core/services/my-cities-store.service.ts:178-181 | A string is a token exactly when it is a non-empty trimmed piece of the field. |
| Splitter.SplitMultiEmpty | MyCitiesNg/src/app/core/services/my-cities-store.service.ts:171-182 | A field has no tokens exactly when it is missing or holds only white space and separators. |
| Duration.DurationSortKey | MyCitiesNg/src/app/core/services/my-cities-store.service.ts:204-245 | A missing or empty label sorts last. Any finite key comes from a trimmed label that starts with `>` or a digit. |
| Duration.MoreThanExactly | MyCitiesNg/src/app/core/services/my-cities-store.service.ts:209-213 | The "more than" matcher returns N exactly when the label is ">", white space, a run of digits of value N, white space, "yr" and anything, the shape `^>\s*(\d+)\s*yr` describes. |
| Duration.RangeExactly | MyCitiesNg/src/app/core/services/my-cities-store.service.ts:216-234 | The range matcher for "mo" or "yr" returns N exactly when the label is digits of value N, white space, "-", white space, digits, white space, the unit and anything. |
| Duration.CountExactly | MyCitiesNg/src/app/core/services/my-cities-store.service.ts:223-241 | The single-count matcher for "mo" or "yr" returns N exactly when the label is digits of value N, white space, the unit and anything. |
| Duration.RecognisedShapes | MyCitiesNg/src/app/core/services/my-cities-store.service.ts:208-241 | Some matcher accepts a label exactly when the label has one of the five regular-expression shapes. |
| Duration.UnknownFormatsLast | MyCitiesNg/src/app/core/services/my-cities-store.service.ts:204-245 | A label gets a number of months exactly when its trimmed, lower-cased text has one of the five shapes. Every other label gets the infinite key, whatever it starts with. |
| Duration.KeyIgnoresSpaces | MyCitiesNg/src/app/core/services/my-cities-store.service.ts:206 | White space around a label does not change its key. |
| Duration.KeyIgnoresCase | MyCitiesNg/src/app/core/services/my-cities-store.service.ts:206 | Labels equal up to letter case have the same key. |
| Duration.ClassifyMoreThanYears | MyCitiesNg/src/app/core/services/my-cities-store.service.ts:208-213 | A trimmed, lower-cased label "> N yr…", with any white space between its parts, is classified as 12N + 6 months, which is (N + 0.5) × 12. N is any run of digits, leading zeros included, and counts by its decimal value as `parseInt` reads it. |
| Duration.ClassifyMonthRange | MyCitiesNg/src/app/core/services/my-cities-store.service.ts:215-220 | A trimmed, lower-cased label "N-M mo…" is classified as N months, the start of the range, for any runs of digits N and M, leading zeros included. |
| Duration.ClassifyMonths | MyCitiesNg/src/app/core/services/my-cities-store.service.ts:222-227 | A trimmed, lower-cased label "N mo…" is classified as N months, for any run of digits N, leading zeros included. |
| Duration.ClassifyYearRange | MyCitiesNg/src/app/core/services/my-cities-store.service.ts:229-234 | A trimmed, lower-cased label "N-M yr…" is classified as 12N months, for any runs of digits N and M, leading zeros included. |
| Duration.ClassifyYears | MyCitiesNg/src/app/core/services/my-cities-store.service.ts:236-241 | A trimmed, lower-cased label "N yr…" is classified as 12N months, for any run of digits N, leading zeros included. |
| Duration.ClassifyUnrecognised | MyCitiesNg/src/app/core/services/my-cities-store.service.ts:243-244 | A trimmed, lower-cased label that starts with neither `>` nor a digit is classified as infinite. |
| Duration.StayCompare | MyCitiesNg/src/app/core/services/my-cities-store.service.ts:247-257 | Two labels compare equal only when they are the same string. A smaller key always comes first. |
| Duration.StayCompareByKey | MyCitiesNg/src/app/core/services/my-cities-store.service.ts:251-256 | The tie-breaker decides exactly when the keys are equal. Otherwise the order is the order of the keys. |
| Duration.StayLeTotalOrder | MyCitiesNg/src/app/core/services/my-cities-store.service.ts:247-257 | The stay order is total, antisymmetric and transitive. |
| Decades.LeadingInt | MyCitiesNg/src/app/core/services/my-cities-store.service.ts:192-193 | `parseInt` gives `NaN` exactly when, after leading white space, the token does not start with a digit or a sign and a digit. |
| Decades.LeadingIntOfDecimal | MyCitiesNg/src/app/core/services/my-cities-store.service.ts:192-193 | A token such as "1980s" reads as the number it starts with. |
| Decades.LeadingIntNone | MyCitiesNg/src/app/core/services/my-cities-store.service.ts:192-193 | A token such as "Unknown" reads as `NaN`. |
| Decades.DecadeCompare | MyCitiesNg/src/app/core/services/my-cities-store.service.ts:190-199 | Two numeric tokens compare by their numbers. Two non-numeric tokens compare equal only when they are identical. |
| Decades.DecadeCompareCycle | MyCitiesNg/src/app/core/services/my-cities-store.service.ts:190-199 | On mixed numeric and non-numeric tokens the comparator has a cycle of three, so it is not an order: "3" before "+5" by number, "+5" before "+x" and "+x" before "3" by the fallback. Both fallback steps come out the same way under `localeCompare`. |
| Decades.DecadeLeAgrees | MyCitiesNg/src/app/core/services/my-cities-store.service.ts:190-199 | On two numeric or two non-numeric tokens, the order the list is sorted by says exactly what `decadeSort` says. |
| Decades.DecadeLeTotalPreorder | MyCitiesNg/src/app/core/services/my-cities-store.service.ts:282 | That order is total and transitive. |
| Orders.LexCompare | MyCitiesNg/src/app/core/services/my-cities-store.service.ts:184-187 | The tie-breaker calls two strings equal only when they are identical. |
| Orders.LexFlip | MyCitiesNg/src/app/core/services/my-cities-store.service.ts:184-187 | Swapping the arguments of the tie-breaker flips its answer. |
| Orders.LexLeTotalOrder | MyCitiesNg/src/app/core/services/my-cities-store.service.ts:184-187 | The tie-breaker is a total order. |
| Sorting.Sort | MyCitiesNg/src/app/core/services/my-cities-store.service.ts:281-282 | The sorted list is ordered and is a permutation of its input. |
| Sorting.SortedUnique | MyCitiesNg/src/app/core/services/my-cities-store.service.ts:281 | Under an antisymmetric order there is one sorted arrangement of a multiset. |
| Sorting.SortedSetUnique | MyCitiesNg/src/app/core/services/my-cities-store.service.ts:281-282 | A duplicate-free sorted list whose elements are never tied is determined by its elements. |
| Seqs.AddAll | MyCitiesNg/src/app/core/services/my-cities-store.service.ts:262-279 | Adding to an insertion-ordered set keeps it duplicate-free and keeps what it held in front. Its members become the old ones plus the added ones. |
| Seqs.AddAllOrder | MyCitiesNg/src/app/core/services/my-cities-store.service.ts:262-279 | What the set gains from a list, it gains in the order the list first mentions each value. |
| Seqs.Dedup | MyCitiesNg/src/app/core/services/my-cities-store.service.ts:281-282 | `Array.from` of a `Set` has no duplicates and the same members as what was added, listed in the order of their first occurrence. |
| FilterLists.StayLabels | MyCitiesNg/src/app/core/services/my-cities-store.service.ts:268-272 | Only non-empty labels are added to the stay set. |
| FilterLists.StayLabelsMembers | MyCitiesNg/src/app/core/services/my-cities-store.service.ts:265-273 | A label is added exactly when it is non-empty and some record's normalised stay is that label. |
| FilterLists.DecadeTokensMembers | MyCitiesNg/src/app/core/services/my-cities-store.service.ts:274-278 | A token is added exactly when some record's decades field yields it. |
| FilterLists.BuildFilterLists | MyCitiesNg/src/app/core/services/my-cities-store.service.ts:260-288 | Neither list has duplicates. Each is sorted by its order. Each is a permutation of its set in insertion order. |
| FilterLists.BuildFilterListsMembers | MyCitiesNg/src/app/core/services/my-cities-store.service.ts:260-288 | The stay list holds exactly the non-blank normalised stay labels of the records. The decade list holds exactly the `splitMulti` tokens of their decades fields. |
| FilterLists.StaysAscending | MyCitiesNg/src/app/core/services/my-cities-store.service.ts:281 | Each stay label comes strictly before every later one, and the keys never decrease along the list. |
| FilterLists.StaysUnique | MyCitiesNg/src/app/core/services/my-cities-store.service.ts:281 | No other duplicate-free sorted arrangement of the stay labels exists. |
| FilterLists.DecadesUnique | MyCitiesNg/src/app/core/services/my-cities-store.service.ts:282 | When no two tokens tie, no other duplicate-free sorted arrangement of the decade tokens exists. |
| FilterLists.DecadesAscending | MyCitiesNg/src/app/core/services/my-cities-store.service.ts:282 | Numeric tokens come before non-numeric ones and ascend by their leading number. |
| Examples.YearRangeKey | MyCitiesNg/src/app/core/services/my-cities-store.service.spec.ts:406-412 | "10-19 yrs" has key 120. |
| Examples.UnknownKeys | MyCitiesNg/src/app/core/services/my-cities-store.service.spec.ts:414-416 | "n/a" and "whatever" have the infinite key, and so does a missing label. |
| Examples.WeeksSortLast | MyCitiesNg/src/app/core/services/my-cities-store.service.ts:243-244 | "12 weeks" starts with a number, but it has none of the five shapes and no matcher accepts it, so it sorts last. |
| Examples.TieBreak | MyCitiesNg/src/app/core/services/my-cities-store.service.spec.ts:419-425 | "bbb" and "aaa" share a key, so the tie-breaker puts "bbb" after "aaa". |
| Examples.MoreThanTwenty | MyCitiesNg/src/app/core/services/my-cities-store.service.ts:208-213 | "> 20 yrs" has key 246, one half-year beyond "20 yrs". |
| Examples.LeadingZeros | MyCitiesNg/src/app/core/services/my-cities-store.service.ts:215-220 | "03-05 mos" has key 3, the same as "3-5 mos": leading zeros do not change a number. |
| Examples.FiveTokens | MyCitiesNg/src/app/core/services/my-cities-store.service.spec.ts:399-400 | "1980s, 1990s;2000s/2010s\|2020s" yields the five decades in order. |
| Examples.NoTokens | MyCitiesNg/src/app/core/services/my-cities-store.service.spec.ts:393-403 | The fields "", "   " and " , ; / \| " yield no tokens. |
| Examples.StayListSorted | MyCitiesNg/src/app/core/services/my-cities-store.service.spec.ts:344 | "1 mo", "3-5 mos", "1 yr", "2 yrs", "10-19 yrs", "> 20 yrs" is sorted by the stay order, without duplicates. |
| Examples.DecadeListSorted | MyCitiesNg/src/app/core/services/my-cities-store.service.spec.ts:347 | "1970s" to "2020s" then "Unknown" is sorted by the decade order, without duplicates or ties. |
| Examples.SampleStays | MyCitiesNg/src/app/core/services/my-cities-store.service.spec.ts:325-344 | The six test records' stay labels give exactly that stay list. |
| Examples.SampleDecades | MyCitiesNg/src/app/core/services/my-cities-store.service.spec.ts:325-347 | The six test records' decades fields give exactly that decade list. |
| Examples.LoadWithInvalidCoordinates | MyCitiesNg/src/app/core/services/my-cities-store.service.spec.ts:73-133 | For two valid records and two with a `NaN` latitude or an infinite longitude, the store keeps the two valid ones. As written the first subscriber receives four records; the intended delivery gives the two the test expects. |
| Examples.SampleView | MyCitiesNg/src/app/core/services/my-cities-store.service.spec.ts:293-322 | For the three test records, the four selections give A B C, then A C, then A B, then A. |

## Left out

- RxJS: the subjects, `combineLatest`, `shareReplay`, `finalize` and the timing of emissions are not modelled. The store is one record, and a fetch completing is an event (`Succeed(raw)` or `Fail`) that can arrive at any point.
- The HTTP collaborator `getAllCities` and the error value it raises are not modelled. The fetched records are the parameter of the success event.
- `console.log` and `console.warn` are left out. The count the warning prints is stated by `Cities.DroppedCount`.
- Coordinates are not IEEE doubles. A coordinate is `Finite`, `NaN`, an infinity, `null` or `undefined`. Strings, booleans and objects as coordinates are left out, because the record type declares numbers.
- Orders.LexCompare: compares by character code, standing in for `localeCompare` with `numeric: true` and base sensitivity. Collation, case-insensitive ties and numeric runs compared as numbers are not modelled.
- FilterLists.BuildFilterLists: sorts the decade list by the numeric-first order `DecadeLe`, not by `decadeSort` itself. `decadeSort` is not an order once numeric and non-numeric tokens mix (`Decades.DecadeCompareCycle`), and what the engine's sort does then is not modelled. The two agree on every pair of the same kind (`Decades.DecadeLeAgrees`).
- Sorting.Sort: is a stable insertion sort, but only ordering and permutation are stated; stability is not proved. For the stay list, `Duration.StayLeTotalOrder` makes the sorted list unique, but only because ties are broken by `Orders.LexCompare`, a code-point comparison standing in for `localeCompare` with numeric collation and base sensitivity. Under `localeCompare` labels such as "1 Mo" and "1 mo", or "01 mo" and "1 mo", compare equal, and the source's stable sort keeps them in first-seen order; that order is not modelled. Decade tokens with the same leading number (say "1980s" and "1980s?") keep their first-seen order in the source, and that order is not stated.
- FilterLists.DecadesUnique: needs no two decade tokens to tie, for the same reason.
- Text.LowerTrim: `toLowerCase` is modelled on ASCII letters only. Other letters are left as they are.
- Duration.DurationSortKey: numbers in labels are unbounded naturals. `parseInt`'s loss of precision on numbers beyond 2^53 is not modelled.
- Cities.ValidCities: keeps records by the intended check `IsValidCoordinate`, so a record with a `null` coordinate, which the code keeps, is dropped, and `Cities.DroppedCount` counts it. `Store.OnSuccess`, `Store.AllValidKept` and `Store.ViewIsValid` inherit this. The check as written is `Cities.IsValidCoordinateAsWritten`, and `Cities.IsValidCoordinateCorrected` shows that the two differ on `null` alone.
- Store.EnsureLoaded: the reply names the fetch a caller shares, not the records it delivers. What a subscriber receives is given by `Store.Received`, and the intended delivery by `Store.ReceivedCorrected`. The rest of the model does not depend on either.
- The base-map mode is an arbitrary string. The `BasemapMode` union type is not enforced.
- `Examples.SampleStays`, `Examples.SampleDecades` and `Examples.SampleView` state the lists and the view for records with the test's stay and decades fields. `Store.AllValidKept` connects them to a load through `ensureLoaded`: the test records' coordinates are all finite, so the whole load is kept. The ids, names, countries and coordinates of the test records are left unspecified.
- The setters' and `refresh`'s test cases (`my-cities-store.service.spec.ts` lines 219-284) are covered by the general contracts, not by concrete examples.

## Findings

| source | as written | input that shows it | evidently intended | confidence | as-written member | corrected member |
|---|---|---|---|---|---|---|
| MyCitiesNg/src/app/core/services/my-cities-store.service.ts:93-108 | the `tap` stores the valid records but passes the received array on to the callers that share the fetch | the loading test's first call receiving records A, B and two records with a `NaN` latitude or an infinite longitude: the subscriber gets all four, while `my-cities-store.service.spec.ts` lines 96-97 expect A and B | subscribers receive the records the store keeps, as a later call does | not executed | Store.FirstLoadUnfiltered | Store.FirstLoadFiltered |
| MyCitiesNg/src/app/core/services/my-cities-store.service.ts:125-128 | a coordinate passes when `Number(value)` is finite | a record with `lat: null`: `Number(null)` is `0`, so the record is kept with no usable position | a missing coordinate is refused like `NaN` and the infinities | not executed | Cities.NullCoordinateAccepted | Cities.IsValidCoordinateCorrected |

=== FILE: cities.dfy ===
/** The city record (`MyCityDto`) and the coordinate check (`isValidCoordinate`) that decides
    which records the store keeps. */
module Cities {
  import opened Wrappers
  import opened Seqs

  /** A coordinate as it may arrive from the back end: a finite number, one of the non-finite
      IEEE values, or JSON `null` / an absent field. Only the distinctions that `Number(...)` and
      `Number.isFinite` draw are kept; the finite value itself is never inspected. */
  datatype Coordinate = Finite(degrees: real) | NaN | PosInfinity | NegInfinity | Null | Undefined

  /** A city record. The free-text fields the store reads may be missing (`null`/`undefined`),
      which the store reads as the empty string. */
  datatype City = City(
    id: int,
    city: string,
    country: string,
    region: string,
    lat: Coordinate,
    lon: Coordinate,
    stayDuration: Option<string>,
    decades: Option<string>,
    notes: Option<string>)

  /** JavaScript's `Number(value)` on a coordinate: `null` becomes `0`, `undefined` becomes `NaN`,
      and numbers are unchanged. */
  function ToNumber(v: Coordinate): (r: Coordinate)
    ensures !r.Null? && !r.Undefined?
    ensures v.Finite? || v.NaN? || v.PosInfinity? || v.NegInfinity? ==> r == v
  {
    match v
    case Null => Finite(0.0)
    case Undefined => NaN
    case _ => v
  }

  /** `isValidCoordinate` as written: `Number.isFinite(Number(value))`. */
  predicate IsValidCoordinateAsWritten(v: Coordinate) {
    ToNumber(v).Finite?
  }

  /** `Number(null)` is `0`, a finite number, so a missing (`null`) coordinate passes the check
      as written and the record is kept with no usable position. */
  lemma NullCoordinateAccepted()
    ensures IsValidCoordinateAsWritten(Null)
    ensures !IsValidCoordinate(Null)
  {
  }

  /** The check as intended: a coordinate is usable exactly when it is a finite number, so that
      `null`, `undefined`, `NaN` and the infinities are all refused. */
  predicate IsValidCoordinate(v: Coordinate) {
    v.Finite?
  }

  /** The intended check is the check as written with `null` refused as well, and it differs
      from the check as written on `null` alone. */
  lemma IsValidCoordinateCorrected(v: Coordinate)
    ensures IsValidCoordinate(v) <==> IsValidCoordinateAsWritten(v) && !v.Null?
    ensures !v.Null? ==> (IsValidCoordinate(v) <==> IsValidCoordinateAsWritten(v))
  {
  }

  predicate HasValidCoordinates(c: City) {
    IsValidCoordinate(c.lat) && IsValidCoordinate(c.lon)
  }

  predicate HasInvalidCoordinates(c: City) {
    !HasValidCoordinates(c)
  }

  /** The records kept on a successful load: those whose latitude and longitude both pass the
      coordinate check, in the order received. */
  function ValidCities(cities: seq<City>): (r: seq<City>)
    ensures |r| <= |cities|
    ensures forall i :: 0 <= i < |r| ==> HasValidCoordinates(r[i])
  {
    Filter(HasValidCoordinates, cities)
  }

  /** A record is kept exactly when it was received and both its coordinates are valid, and the
      kept records keep their order. */
  lemma ValidCitiesExactly(cities: seq<City>, c: City)
    ensures c in ValidCities(cities) <==> c in cities && HasValidCoordinates(c)
    ensures IsSubseq(ValidCities(cities), cities)
  {
    FilterMembers(HasValidCoordinates, cities, c);
    FilterIsSubseq(HasValidCoordinates, cities);
  }

  /** How many records the summary warning reports: the number received minus the number kept
      is the number with an invalid coordinate. */
  lemma DroppedCount(cities: seq<City>)
    ensures |cities| - |ValidCities(cities)| == |Filter(HasInvalidCoordinates, cities)|
  {
    FilterComplement(HasValidCoordinates, HasInvalidCoordinates, cities);
  }
}

=== FILE: decades.dfy ===
/** `decadeSort`: ordering decade tokens such as "1970s" or "2000s" by the number they start
    with, as `parseInt(token, 10)` reads it. */
module Decades {
  import opened Wrappers
  import opened Text
  import opened Orders

  /** `t` begins the way `parseInt` needs: a digit, or a sign followed by a digit. */
  predicate StartsNumber(t: string) {
    || (t != [] && IsDigit(t[0]))
    || (|t| > 1 && (t[0] == '+' || t[0] == '-') && IsDigit(t[1]))
  }

  /** `parseInt(s, 10)`: skip leading white space, read an optional sign and then the longest
      run of decimal digits. `None` stands for `NaN`, the answer when no digit follows. */
  function LeadingInt(s: string): (r: Option<int>)
    ensures r.None? <==> !StartsNumber(TrimStart(s))
  {
    var t := TrimStart(s);
    var signed := t != [] && (t[0] == '+' || t[0] == '-');
    var number := Number(if signed then t[1..] else t);
    if number.None? then None
    else if signed && t[0] == '-' then Some(-(number.value.0 as int))
    else Some(number.value.0)
  }

  /** A token such as "1980s" reads as the number it starts with. */
  lemma LeadingIntOfDecimal(n: nat, rest: string)
    requires rest == [] || !IsDigit(rest[0])
    ensures LeadingInt(Decimal(n) + rest) == Some(n)
  {
    var s := Decimal(n) + rest;
    NumberOfDecimal(n, rest);
    TrimStartUnchanged(s);
  }

  /** A token that starts with anything but white space, a sign or a digit, such as "Unknown",
      reads as `NaN`. */
  lemma LeadingIntNone(s: string)
    requires s != [] && !IsSpace(s[0]) && !IsDigit(s[0]) && s[0] != '+' && s[0] != '-'
    ensures LeadingInt(s) == None
  {
    TrimStartUnchanged(s);
  }

  function Sign(d: int): Ordering {
    if d < 0 then Lt else if d == 0 then Eq else Gt
  }

  /** `decadeSort(a, b)` as written: the difference of the two leading numbers when both parse,
      otherwise the lexical fallback. */
  function DecadeCompare(a: string, b: string): (r: Ordering)
    ensures LeadingInt(a).Some? && LeadingInt(b).Some? ==>
      (r == Lt <==> LeadingInt(a).value < LeadingInt(b).value) &&
      (r == Eq <==> LeadingInt(a).value == LeadingInt(b).value)
    ensures LeadingInt(a).None? && LeadingInt(b).None? ==> (r == Eq <==> a == b)
  {
    var na, nb := LeadingInt(a), LeadingInt(b);
    if na.Some? && nb.Some? then Sign(na.value - nb.value) else LexCompare(a, b)
  }

  /** The comparator is not a consistent order once numeric and non-numeric tokens mix: here
      three tokens each come before the next and the last before the first. "3" and "+5" compare
      as numbers, the other two pairs by the fallback, and both fallback pairs come out the same
      way under `localeCompare` (a digit before a letter, a sign before a digit). */
  lemma DecadeCompareCycle()
    ensures DecadeCompare("3", "+5") == Lt
    ensures DecadeCompare("+5", "+x") == Lt
    ensures DecadeCompare("+x", "3") == Lt
  {
    Three();
    SignedFive();
    SignedLetter();
  }

  lemma Three()
    ensures LeadingInt("3") == Some(3)
  {
    LeadingIntOfDecimal(3, []);
    assert Decimal(3) + [] == "3";
  }

  lemma SignedFive()
    ensures LeadingInt("+5") == Some(5)
  {
    TrimStartUnchanged("+5");
    NumberOfDecimal(5, []);
    assert "+5"[1..] == Decimal(5) + [];
  }

  lemma SignedLetter()
    ensures LeadingInt("+x") == None
  {
    TrimStartUnchanged("+x");
  }

  /** The order the decade list is sorted by: tokens with a leading number first, ascending by
      that number as `decadeSort` orders them, then the others in the lexical order its fallback
      uses. Tokens with the same leading number are tied. */
  predicate DecadeLe(a: string, b: string) {
    var na, nb := LeadingInt(a), LeadingInt(b);
    if na.Some? && nb.Some? then na.value <= nb.value
    else if na.Some? then true
    else if nb.Some? then false
    else LexLe(a, b)
  }

  /** On two numeric tokens, or on two non-numeric ones, `DecadeLe` is exactly what `decadeSort`
      says: `a` may come first iff the comparator does not put it after `b`. */
  lemma DecadeLeAgrees(a: string, b: string)
    requires LeadingInt(a).Some? == LeadingInt(b).Some?
    ensures DecadeLe(a, b) <==> DecadeCompare(a, b) != Gt
  {
  }

  /** `DecadeLe` is total and transitive, so it can be sorted by. */
  lemma DecadeLeTotalPreorder(a: string, b: string, c: string)
    ensures DecadeLe(a, b) || DecadeLe(b, a)
    ensures DecadeLe(a, b) && DecadeLe(b, c) ==> DecadeLe(a, c)
  {
    LexLeTotalOrder(a, b, c);
  }
}

=== FILE: duration.dfy ===
/** `durationSortKey` and `stayDurationSort`: ordering human-written stay labels such as
    "1 mo", "3-5 mos", "1 yr" or "> 20 yrs" by the time they stand for. */
module Duration {
  import opened Wrappers
  import opened Text
  import opened Orders

  /** A stay label's sort key in months. `Infinite` is `Number.POSITIVE_INFINITY`, the key of a
      label no pattern recognises. Every finite key the source computes is a whole number of months:
      the "more than N years" key `(N + 0.5) * 12` equals `12 * N + 6`. */
  datatype Key = Months(months: nat) | Infinite

  /** `ka - kb < 0` for two keys that differ. */
  predicate KeyLess(a: Key, b: Key) {
    match (a, b)
    case (Months(x), Months(y)) => x < y
    case (Months(_), Infinite) => true
    case (Infinite, _) => false
  }

  /** `prefix` follows once the white space at the front of `s` (`\s*`) is skipped. */
  predicate SkipThen(s: string, prefix: string) {
    StartsWith(TrimStart(s), prefix)
  }

  /** `^>\s*(\d+)\s*yr`: the N of "> N yrs". */
  function MoreThanYears(s: string): (r: Option<nat>)
    ensures r.Some? ==> s != [] && s[0] == '>'
  {
    if s == [] || s[0] != '>' then None
    else
      var number := Number(TrimStart(s[1..]));
      if number.Some? && SkipThen(number.value.1, "yr") then Some(number.value.0) else None
  }

  /** `^(\d+)\s*-\s*(\d+)\s*<unit>`: the start N of a range "N-M <unit>". */
  function RangeStart(s: string, unit: string): (r: Option<nat>)
    ensures r.Some? ==> s != [] && IsDigit(s[0])
  {
    var first := Number(s);
    if first.None? then None
    else
      var t := TrimStart(first.value.1);
      if t == [] || t[0] != '-' then None
      else
        var second := Number(TrimStart(t[1..]));
        if second.Some? && SkipThen(second.value.1, unit) then Some(first.value.0) else None
  }

  /** `^(\d+)\s*<unit>`: the N of "N <unit>". */
  function Count(s: string, unit: string): (r: Option<nat>)
    ensures r.Some? ==> s != [] && IsDigit(s[0])
  {
    var number := Number(s);
    if number.Some? && SkipThen(number.value.1, unit) then Some(number.value.0) else None
  }

  /** The five patterns, tried in this order on the trimmed, lower-cased label: "> N yr",
      "N-M mo", "N mo", "N-M yr", "N yr". The first that matches decides the key. */
  function Classify(s: string): (k: Key)
    ensures k.Months? ==> s != [] && (s[0] == '>' || IsDigit(s[0]))
  {
    var above := MoreThanYears(s);
    if above.Some? then Months(12 * above.value + 6)
    else
      var monthRange := RangeStart(s, "mo");
      if monthRange.Some? then Months(monthRange.value)
      else
        var months := Count(s, "mo");
        if months.Some? then Months(months.value)
        else
          var yearRange := RangeStart(s, "yr");
          if yearRange.Some? then Months(12 * yearRange.value)
          else
            var years := Count(s, "yr");
            if years.Some? then Months(12 * years.value)
            else Infinite
  }

  /** `durationSortKey(stay)`: a missing label reads as the empty string, which sorts last. */
  function DurationSortKey(stay: Option<string>): (k: Key)
    ensures stay == None || stay == Some("") ==> k == Infinite
    ensures k.Months? ==> var t := Trim(stay.GetOr("")); t != [] && (t[0] == '>' || IsDigit(t[0]))
  {
    Classify(Lower(Trim(stay.GetOr(""))))
  }

  /** One of the five patterns matches `s`. */
  predicate Recognised(s: string) {
    || MoreThanYears(s).Some?
    || RangeStart(s, "mo").Some? || Count(s, "mo").Some?
    || RangeStart(s, "yr").Some? || Count(s, "yr").Some?
  }

  /** The shapes the five regular expressions describe, spelt out as strings rather than as
      matchers: `s` is ">", white space, a run of digits with value `n`, white space, "yr" and
      anything (`^>\s*(\d+)\s*yr`). */
  predicate MoreThanText(s: string, sp1: string, d: string, sp2: string, tail: string, n: nat) {
    && AllSpace(sp1) && AllSpace(sp2) && d != [] && AllDigits(d) && DigitsValue(d) == n
    && s == ">" + sp1 + d + sp2 + "yr" + tail
  }

  /** `^(\d+)\s*-\s*(\d+)\s*<unit>` with first number `n`. */
  predicate RangeText(s: string, d: string, sp1: string, sp2: string, e: string, sp3: string,
                      unit: string, tail: string, n: nat) {
    && AllSpace(sp1) && AllSpace(sp2) && AllSpace(sp3)
    && d != [] && AllDigits(d) && e != [] && AllDigits(e) && DigitsValue(d) == n
    && s == d + sp1 + "-" + sp2 + e + sp3 + unit + tail
  }

  /** `^(\d+)\s*<unit>` with number `n`. */
  predicate CountText(s: string, d: string, sp: string, unit: string, tail: string, n: nat) {
    && AllSpace(sp) && d != [] && AllDigits(d) && DigitsValue(d) == n
    && s == d + sp + unit + tail
  }

  ghost predicate MoreThanShape(s: string, n: nat) {
    exists sp1, d, sp2, tail :: MoreThanText(s, sp1, d, sp2, tail, n)
  }

  ghost predicate RangeShape(s: string, unit: string, n: nat) {
    exists d, sp1, sp2, e, sp3, tail :: RangeText(s, d, sp1, sp2, e, sp3, unit, tail, n)
  }

  ghost predicate CountShape(s: string, unit: string, n: nat) {
    exists d, sp, tail :: CountText(s, d, sp, unit, tail, n)
  }

  /** `s` has one of the five shapes. */
  ghost predicate HasKnownShape(s: string) {
    || (exists n :: MoreThanShape(s, n))
    || (exists n :: RangeShape(s, "mo", n)) || (exists n :: CountShape(s, "mo", n))
    || (exists n :: RangeShape(s, "yr", n)) || (exists n :: CountShape(s, "yr", n))
  }

  lemma Regroup4(a: string, b: string, c: string, d: string)
    ensures a + (b + (c + d)) == a + b + c + d
  {
  }

  lemma Regroup5(a: string, b: string, c: string, d: string, e: string, f: string)
    ensures a + (b + (c + (d + (e + f)))) == a + b + c + d + e + f
  {
  }

  lemma Regroup8(a: string, b: string, c: string, d: string, e: string, f: string, g: string, h: string)
    ensures a + (b + (c + (d + (e + (f + (g + h)))))) == a + b + c + d + e + f + g + h
  {
  }

  /** A number and a unit read off the front of `v`: `v` is the digits, white space, the unit
      and the rest. */
  lemma NumberUnitSound(v: string, unit: string) returns (d: string, sp: string, tail: string)
    requires Number(v).Some? && SkipThen(Number(v).value.1, unit)
    ensures d != [] && AllDigits(d) && DigitsValue(d) == Number(v).value.0
    ensures AllSpace(sp) && v == d + (sp + (unit + tail))
  {
    d := NumberSplit(v);
    var rest := Number(v).value.1;
    sp := TrimStartSplit(rest);
    var w := TrimStart(rest);
    tail := w[|unit|..];
    assert w == unit + tail;
  }

  /** What `MoreThanYears` accepts has the shape "> N yr…", with the number it returns. */
  lemma MoreThanSound(s: string, n: nat)
    requires MoreThanYears(s) == Some(n)
    ensures MoreThanShape(s, n)
  {
    var u := s[1..];
    assert s == ">" + u;
    var sp1 := TrimStartSplit(u);
    var d, sp2, tail := NumberUnitSound(TrimStart(u), "yr");
    Regroup5(">", sp1, d, sp2, "yr", tail);
    assert MoreThanText(s, sp1, d, sp2, tail, n);
  }

  /** `MoreThanYears` returns `n` exactly for the labels of shape "> N yr…" with N of value `n`. */
  lemma MoreThanExactly(s: string, n: nat)
    ensures MoreThanYears(s) == Some(n) <==> MoreThanShape(s, n)
  {
    if MoreThanYears(s) == Some(n) {
      MoreThanSound(s, n);
    }
    if MoreThanShape(s, n) {
      var sp1, d, sp2, tail :| MoreThanText(s, sp1, d, sp2, tail, n);
      MoreThanOf(d, sp1, sp2, tail);
    }
  }

  /** What follows the first number of a range: white space, a dash, white space, a second
      number, white space and the unit. */
  lemma DashNumberUnitSound(rest: string, unit: string)
    returns (sp1: string, sp2: string, e: string, sp3: string, tail: string)
    requires TrimStart(rest) != [] && TrimStart(rest)[0] == '-'
    requires Number(TrimStart(TrimStart(rest)[1..])).Some?
    requires SkipThen(Number(TrimStart(TrimStart(rest)[1..])).value.1, unit)
    ensures AllSpace(sp1) && AllSpace(sp2) && AllSpace(sp3) && e != [] && AllDigits(e)
    ensures rest == sp1 + ("-" + (sp2 + (e + (sp3 + (unit + tail)))))
  {
    sp1 := TrimStartSplit(rest);
    var t := TrimStart(rest);
    var u := t[1..];
    assert t == "-" + u;
    sp2 := TrimStartSplit(u);
    e, sp3, tail := NumberUnitSound(TrimStart(u), unit);
  }

  /** What `RangeStart` accepts has the shape "N - M unit…", with the first number it returns. */
  lemma RangeSound(s: string, unit: string, n: nat)
    requires RangeStart(s, unit) == Some(n)
    ensures RangeShape(s, unit, n)
  {
    var d := NumberSplit(s);
    var sp1, sp2, e, sp3, tail := DashNumberUnitSound(Number(s).value.1, unit);
    Regroup8(d, sp1, "-", sp2, e, sp3, unit, tail);
    assert RangeText(s, d, sp1, sp2, e, sp3, unit, tail, n);
  }

  /** `RangeStart` returns `n` exactly for the labels of shape "N - M unit…" with N of value `n`. */
  lemma RangeExactly(s: string, unit: string, n: nat)
    requires unit == "mo" || unit == "yr"
    ensures RangeStart(s, unit) == Some(n) <==> RangeShape(s, unit, n)
  {
    if RangeStart(s, unit) == Some(n) {
      RangeSound(s, unit, n);
    }
    if RangeShape(s, unit, n) {
      var d, sp1, sp2, e, sp3, tail :| RangeText(s, d, sp1, sp2, e, sp3, unit, tail, n);
      RangeOf(d, sp1, sp2, e, sp3, unit, tail);
    }
  }

  /** What `Count` accepts has the shape "N unit…", with the number it returns. */
  lemma CountSound(s: string, unit: string, n: nat)
    requires Count(s, unit) == Some(n)
    ensures CountShape(s, unit, n)
  {
    var d, sp, tail := NumberUnitSound(s, unit);
    Regroup4(d, sp, unit, tail);
    assert CountText(s, d, sp, unit, tail, n);
  }

  /** `Count` returns `n` exactly for the labels of shape "N unit…" with N of value `n`. */
  lemma CountExactly(s: string, unit: string, n: nat)
    requires unit == "mo" || unit == "yr"
    ensures Count(s, unit) == Some(n) <==> CountShape(s, unit, n)
  {
    if Count(s, unit) == Some(n) {
      CountSound(s, unit, n);
    }
    if CountShape(s, unit, n) {
      var d, sp, tail :| CountText(s, d, sp, unit, tail, n);
      CountOf(d, sp, unit, tail);
    }
  }

  lemma RecognisedHasShape(s: string)
    requires Recognised(s)
    ensures HasKnownShape(s)
  {
    if MoreThanYears(s).Some? {
      MoreThanSound(s, MoreThanYears(s).value);
    } else if RangeStart(s, "mo").Some? {
      RangeSound(s, "mo", RangeStart(s, "mo").value);
    } else if Count(s, "mo").Some? {
      CountSound(s, "mo", Count(s, "mo").value);
    } else if RangeStart(s, "yr").Some? {
      RangeSound(s, "yr", RangeStart(s, "yr").value);
    } else {
      CountSound(s, "yr", Count(s, "yr").value);
    }
  }

  lemma ShapeRecognised(s: string)
    requires HasKnownShape(s)
    ensures Recognised(s)
  {
    if exists n :: MoreThanShape(s, n) {
      var n :| MoreThanShape(s, n);
      MoreThanExactly(s, n);
    } else if exists n :: RangeShape(s, "mo", n) {
      var n :| RangeShape(s, "mo", n);
      RangeExactly(s, "mo", n);
    } else if exists n :: CountShape(s, "mo", n) {
      var n :| CountShape(s, "mo", n);
      CountExactly(s, "mo", n);
    } else if exists n :: RangeShape(s, "yr", n) {
      var n :| RangeShape(s, "yr", n);
      RangeExactly(s, "yr", n);
    } else {
      var n :| CountShape(s, "yr", n);
      CountExactly(s, "yr", n);
    }
  }

  /** The matchers recognise exactly the labels that have one of the five shapes. */
  lemma RecognisedShapes(s: string)
    ensures Recognised(s) <==> HasKnownShape(s)
  {
    if Recognised(s) {
      RecognisedHasShape(s);
    }
    if HasKnownShape(s) {
      ShapeRecognised(s);
    }
  }

  /** The cascade gives a number of months exactly when one of its matchers accepts. */
  lemma ClassifyRecognised(s: string)
    ensures Classify(s).Months? <==> Recognised(s)
  {
  }

  /** A label gets a number of months exactly when its trimmed, lower-cased text has one of the
      five shapes, which is exactly when one of the five matchers accepts it; every other label,
      whatever it starts with ("12 weeks", "> 5 mo"), gets the infinite key and sorts last. */
  lemma UnknownFormatsLast(stay: Option<string>)
    ensures DurationSortKey(stay).Months? <==> HasKnownShape(Lower(Trim(stay.GetOr(""))))
    ensures DurationSortKey(stay) == Infinite <==> !HasKnownShape(Lower(Trim(stay.GetOr(""))))
    ensures DurationSortKey(stay).Months? <==> Recognised(Lower(Trim(stay.GetOr(""))))
  {
    var t := Lower(Trim(stay.GetOr("")));
    assert DurationSortKey(stay) == Classify(t);
    ClassifyRecognised(t);
    RecognisedShapes(t);
  }

  /** Surrounding white space does not change a label's key. */
  lemma KeyIgnoresSpaces(pre: string, stay: string, post: string)
    requires AllSpace(pre) && AllSpace(post)
    ensures DurationSortKey(Some(pre + stay + post)) == DurationSortKey(Some(stay))
  {
    TrimPadded(pre, stay, post);
  }

  /** Labels that differ only in letter case have the same key. */
  lemma KeyIgnoresCase(a: string, b: string)
    requires Lower(a) == Lower(b)
    ensures DurationSortKey(Some(a)) == DurationSortKey(Some(b))
  {
    LowerTrim(a);
    LowerTrim(b);
  }

  /** A run of digits, white space and a unit: the front of every "N unit" label. */
  lemma NumberThenUnit(d: string, sp: string, after: string) returns (rest: string)
    requires d != [] && AllDigits(d)
    requires AllSpace(sp) && after != [] && !IsSpace(after[0]) && !IsDigit(after[0])
    ensures rest == sp + after
    ensures Number(d + sp + after) == Some((DigitsValue(d), rest))
    ensures TrimStart(rest) == after
  {
    rest := sp + after;
    assert d + sp + after == d + rest;
    assert rest[0] == if sp != [] then sp[0] else after[0];
    NumberOfDigits(d, rest);
    TrimStartOf(sp, after);
  }

  /** "> N yr…" has key `12 * N + 6`, after every "N yr…" label. N is any run of digits,
      leading zeros included, and is read as `parseInt` reads it. */
  lemma ClassifyMoreThanYears(d: string, sp1: string, sp2: string, tail: string)
    requires d != [] && AllDigits(d)
    requires AllSpace(sp1) && AllSpace(sp2)
    ensures Classify(">" + sp1 + d + sp2 + "yr" + tail) == Months(12 * DigitsValue(d) + 6)
  {
    ClassifyMoreThan(">" + sp1 + d + sp2 + "yr" + tail, d, sp1, sp2, tail);
  }

  lemma ClassifyMoreThan(s: string, d: string, sp1: string, sp2: string, tail: string)
    requires d != [] && AllDigits(d)
    requires AllSpace(sp1) && AllSpace(sp2)
    requires s == ">" + sp1 + d + sp2 + "yr" + tail
    ensures Classify(s) == Months(12 * DigitsValue(d) + 6)
  {
    MoreThanOf(d, sp1, sp2, tail);
    ClassifyAbove(s, DigitsValue(d));
  }

  lemma ClassifyAbove(s: string, n: nat)
    requires MoreThanYears(s) == Some(n)
    ensures Classify(s) == Months(12 * n + 6)
  {
  }

  lemma MoreThanOf(d: string, sp1: string, sp2: string, tail: string)
    requires d != [] && AllDigits(d)
    requires AllSpace(sp1) && AllSpace(sp2)
    ensures MoreThanYears(">" + sp1 + d + sp2 + "yr" + tail) == Some(DigitsValue(d))
  {
    var s := ">" + sp1 + d + sp2 + "yr" + tail;
    var body := d + sp2 + ("yr" + tail);
    assert s == ">" + (sp1 + body) by {
      RegroupTail(">", sp1, d, sp2, "yr", tail);
    }
    var rest := MoreThanFront(d, sp1, sp2, tail);
    MoreThanMatches(s, DigitsValue(d), rest, tail);
  }

  /** The number of "> N" followed by `after`. */
  lemma MoreThanFront(d: string, sp1: string, sp2: string, tail: string) returns (rest: string)
    requires d != [] && AllDigits(d)
    requires AllSpace(sp1) && AllSpace(sp2)
    ensures var s := ">" + (sp1 + (d + sp2 + ("yr" + tail)));
      && Number(TrimStart(s[1..])) == Some((DigitsValue(d), rest)) && TrimStart(rest) == "yr" + tail
  {
    var body := d + sp2 + ("yr" + tail);
    var s := ">" + (sp1 + body);
    assert s[1..] == sp1 + body;
    TrimStartOf(sp1, body);
    rest := NumberThenUnit(d, sp2, "yr" + tail);
  }

  lemma MoreThanMatches(s: string, n: nat, rest: string, tail: string)
    requires s != [] && s[0] == '>'
    requires Number(TrimStart(s[1..])) == Some((n, rest)) && TrimStart(rest) == "yr" + tail
    ensures MoreThanYears(s) == Some(n)
  {
    UnitAhead(rest, "yr", tail);
  }

  /** The two numbers of a range "N - M" followed by `after`. */
  lemma RangeFront(d: string, sp1: string, sp2: string, e: string, sp3: string, after: string)
    returns (rest: string, rest': string)
    requires d != [] && AllDigits(d) && e != [] && AllDigits(e)
    requires AllSpace(sp1) && AllSpace(sp2) && AllSpace(sp3)
    requires after != [] && !IsSpace(after[0]) && !IsDigit(after[0])
    ensures Number(d + sp1 + "-" + sp2 + e + sp3 + after) == Some((DigitsValue(d), rest))
    ensures TrimStart(rest) != [] && TrimStart(rest)[0] == '-'
    ensures Number(TrimStart(TrimStart(rest)[1..])) == Some((DigitsValue(e), rest'))
    ensures TrimStart(rest') == after
  {
    var back := e + sp3 + after;
    var t := ['-'] + (sp2 + back);
    assert d + sp1 + "-" + sp2 + e + sp3 + after == d + sp1 + t by {
      Regroup(d, sp1, "-", sp2, e + sp3, after);
    }
    rest := NumberThenUnit(d, sp1, t);
    assert t[1..] == sp2 + back;
    TrimStartOf(sp2, back);
    rest' := NumberThenUnit(e, sp3, after);
  }

  /** Which patterns match a label whose numbers have already been read off. */
  lemma RangeMatches(s: string, n: nat, rest: string, m: nat, rest': string, unit: string, tail: string)
    requires unit == "mo" || unit == "yr"
    requires Number(s) == Some((n, rest))
    requires TrimStart(rest) != [] && TrimStart(rest)[0] == '-'
    requires Number(TrimStart(TrimStart(rest)[1..])) == Some((m, rest'))
    requires TrimStart(rest') == unit + tail
    ensures RangeStart(s, unit) == Some(n)
    ensures RangeStart(s, if unit == "mo" then "yr" else "mo") == None
    ensures Count(s, "mo") == None && Count(s, "yr") == None
    ensures MoreThanYears(s) == None
  {
    UnitAhead(rest', unit, tail);
    var t := TrimStart(rest);
    Mismatch(t, "mo");
    Mismatch(t, "yr");
    assert !SkipThen(rest, "mo") && !SkipThen(rest, "yr");
    assert IsDigit(s[0]);
  }

  lemma Mismatch(s: string, prefix: string)
    requires s != [] && prefix != [] && s[0] != prefix[0]
    ensures !StartsWith(s, prefix)
  {
  }

  /** A range "N - M unit…": only the range pattern for that unit matches it. */
  lemma RangeOf(d: string, sp1: string, sp2: string, e: string, sp3: string, unit: string, tail: string)
    requires d != [] && AllDigits(d) && e != [] && AllDigits(e)
    requires AllSpace(sp1) && AllSpace(sp2) && AllSpace(sp3)
    requires unit == "mo" || unit == "yr"
    ensures var s := d + sp1 + "-" + sp2 + e + sp3 + unit + tail;
      && RangeStart(s, unit) == Some(DigitsValue(d))
      && RangeStart(s, if unit == "mo" then "yr" else "mo") == None
      && Count(s, "mo") == None && Count(s, "yr") == None
      && MoreThanYears(s) == None
  {
    var front := d + sp1 + "-" + sp2 + e + sp3;
    assert front + unit + tail == front + (unit + tail);
    var rest, rest' := RangeFront(d, sp1, sp2, e, sp3, unit + tail);
    RangeMatches(front + unit + tail, DigitsValue(d), rest, DigitsValue(e), rest', unit, tail);
  }

  lemma RegroupTail(a: string, b: string, c: string, d: string, e: string, f: string)
    ensures a + b + c + d + e + f == a + (b + (c + d + (e + f)))
  {
  }

  lemma Regroup(a: string, b: string, c: string, d: string, e: string, f: string)
    ensures a + b + c + d + e + f == a + b + (c + (d + (e + f)))
  {
  }

  lemma UnitAhead(rest: string, unit: string, tail: string)
    requires unit == "mo" || unit == "yr"
    requires TrimStart(rest) == unit + tail
    ensures SkipThen(rest, unit)
    ensures !SkipThen(rest, if unit == "mo" then "yr" else "mo")
  {
    assert (unit + tail)[..2] == unit;
    assert (unit + tail)[0] == unit[0];
  }

  /** "N-M mo…" has key N: ranges of months sort by their start. */
  lemma ClassifyMonthRange(d: string, sp1: string, sp2: string, e: string, sp3: string, tail: string)
    requires d != [] && AllDigits(d) && e != [] && AllDigits(e)
    requires AllSpace(sp1) && AllSpace(sp2) && AllSpace(sp3)
    ensures Classify(d + sp1 + "-" + sp2 + e + sp3 + "mo" + tail) == Months(DigitsValue(d))
  {
    RangeOf(d, sp1, sp2, e, sp3, "mo", tail);
  }

  /** "N-M yr…" has key `12 * N`. */
  lemma ClassifyYearRange(d: string, sp1: string, sp2: string, e: string, sp3: string, tail: string)
    requires d != [] && AllDigits(d) && e != [] && AllDigits(e)
    requires AllSpace(sp1) && AllSpace(sp2) && AllSpace(sp3)
    ensures Classify(d + sp1 + "-" + sp2 + e + sp3 + "yr" + tail) == Months(12 * DigitsValue(d))
  {
    RangeOf(d, sp1, sp2, e, sp3, "yr", tail);
  }

  /** "N unit…" without a range: only the single-count pattern for that unit matches it. */
  lemma CountOf(d: string, sp: string, unit: string, tail: string)
    requires d != [] && AllDigits(d)
    requires AllSpace(sp)
    requires unit == "mo" || unit == "yr"
    ensures var s := d + sp + unit + tail;
      && Count(s, unit) == Some(DigitsValue(d))
      && Count(s, if unit == "mo" then "yr" else "mo") == None
      && RangeStart(s, "mo") == None && RangeStart(s, "yr") == None
      && MoreThanYears(s) == None
  {
    var s := d + sp + unit + tail;
    assert s == d + sp + (unit + tail);
    var rest := NumberThenUnit(d, sp, unit + tail);
    assert Number(s) == Some((DigitsValue(d), rest));
    UnitAhead(rest, unit, tail);
    assert TrimStart(rest)[0] != '-';
  }

  /** "N mo…" has key N. */
  lemma ClassifyMonths(d: string, sp: string, tail: string)
    requires d != [] && AllDigits(d)
    requires AllSpace(sp)
    ensures Classify(d + sp + "mo" + tail) == Months(DigitsValue(d))
  {
    CountOf(d, sp, "mo", tail);
  }

  /** "N yr…" has key `12 * N`. */
  lemma ClassifyYears(d: string, sp: string, tail: string)
    requires d != [] && AllDigits(d)
    requires AllSpace(sp)
    ensures Classify(d + sp + "yr" + tail) == Months(12 * DigitsValue(d))
  {
    CountOf(d, sp, "yr", tail);
  }

  /** A label that starts with neither `>` nor a digit is unrecognised and sorts last. */
  lemma ClassifyUnrecognised(s: string)
    requires s == [] || (s[0] != '>' && !IsDigit(s[0]))
    ensures Classify(s) == Infinite
  {
  }

  /** `stayDurationSort(a, b)`: by key, and by the lexical tie-breaker only when keys are equal. */
  function StayCompare(a: string, b: string): (r: Ordering)
    ensures r == Eq <==> a == b
    ensures KeyLess(DurationSortKey(Some(a)), DurationSortKey(Some(b))) ==> r == Lt
  {
    var ka, kb := DurationSortKey(Some(a)), DurationSortKey(Some(b));
    if ka != kb then (if KeyLess(ka, kb) then Lt else Gt) else LexCompare(a, b)
  }

  predicate StayLe(a: string, b: string) {
    StayCompare(a, b) != Gt
  }

  /** The lexical order decides only between labels with the same key. */
  lemma StayCompareByKey(a: string, b: string)
    ensures DurationSortKey(Some(a)) == DurationSortKey(Some(b)) ==> StayCompare(a, b) == LexCompare(a, b)
    ensures DurationSortKey(Some(a)) != DurationSortKey(Some(b)) ==>
      (StayCompare(a, b) == Lt <==> KeyLess(DurationSortKey(Some(a)), DurationSortKey(Some(b))))
  {
  }

  /** `StayLe` is a total order, so sorting by it has exactly one outcome. */
  lemma StayLeTotalOrder(a: string, b: string, c: string)
    ensures StayLe(a, b) || StayLe(b, a)
    ensures StayLe(a, b) && StayLe(b, a) ==> a == b
    ensures StayLe(a, b) && StayLe(b, c) ==> StayLe(a, c)
  {
    LexLeTotalOrder(a, b, c);
  }
}

=== FILE: examples.dfy ===
/** The store's documented behaviour on concrete inputs, derived from the general lemmas. */
module Examples {
  import opened Wrappers
  import opened Text
  import opened Seqs
  import opened Sorting
  import opened Orders
  import opened Splitter
  import opened Duration
  import opened Decades
  import Cities
  import opened FilterLists
  import opened Filters
  import Store

  /** A label made of digits, ASCII letters and the punctuation the patterns use is unchanged by
      trimming and lower-casing when its ends are not white space and it has no capital. */
  lemma PlainLabel(s: string)
    requires Trimmed(s)
    requires forall i :: 0 <= i < |s| ==> !('A' <= s[i] <= 'Z')
    ensures Lower(Trim(s)) == s
  {
  }

  lemma Ten()
    ensures Decimal(10) == "10" && Decimal(19) == "19"
  {
  }

  lemma YearRangeText()
    ensures Decimal(10) + "" + "-" + "" + Decimal(19) + " " + "yr" + "s" == "10-19 yrs"
  {
    Ten();
  }

  /** "10-19 yrs" sorts by its first number of years, 120 months. */
  lemma YearRangeKey(s: string)
    requires s == "10-19 yrs"
    ensures DurationSortKey(Some(s)) == Months(120)
  {
    PlainLabel(s);
    YearRangeText();
    ClassifyYearRange(Decimal(10), "", "", Decimal(19), " ", "s");
    DecimalValue(10);
  }

  lemma WeeksText()
    ensures Decimal(12) + " " + "weeks" == "12 weeks"
  {
  }

  /** A number followed by a word that is neither a range nor a month or year unit matches no
      pattern. */
  lemma OtherUnit(s: string, n: nat, sp: string, after: string)
    requires s == Decimal(n) + sp + after
    requires AllSpace(sp) && after != [] && !IsSpace(after[0]) && !IsDigit(after[0])
    requires after[0] != '-' && after[0] != 'm' && after[0] != 'y'
    ensures !Recognised(s)
  {
    var rest := NumberThenUnit(Decimal(n), sp, after);
  }

  lemma WeeksUnmatched(s: string)
    requires s == "12 weeks"
    ensures !Recognised(s)
  {
    WeeksText();
    OtherUnit(s, 12, " ", "weeks");
  }

  lemma WeeksPlain(s: string)
    requires s == "12 weeks"
    ensures Lower(Trim(s)) == s
  {
    PlainLabel(s);
  }

  lemma SortsLast(s: string)
    requires Lower(Trim(s)) == s && !Recognised(s)
    ensures DurationSortKey(Some(s)) == Infinite
  {
    UnknownFormatsLast(Some(s));
  }

  /** "12 weeks" starts with a number, but no pattern names weeks, so it sorts last. */
  lemma WeeksSortLast(s: string)
    requires s == "12 weeks"
    ensures !Recognised(s) && !HasKnownShape(s)
    ensures DurationSortKey(Some(s)) == Infinite
  {
    WeeksUnmatched(s);
    RecognisedShapes(s);
    WeeksPlain(s);
    SortsLast(s);
  }

  /** Labels no pattern recognises, and a missing label, sort last. */
  lemma UnknownKeys(s: string)
    requires s == "n/a" || s == "whatever"
    ensures DurationSortKey(Some(s)) == Infinite
    ensures DurationSortKey(None) == Infinite
  {
    PlainLabel(s);
    ClassifyUnrecognised(s);
  }

  lemma UnknownLabel(s: string)
    requires s == "aaa" || s == "bbb"
    ensures DurationSortKey(Some(s)) == Infinite
  {
    PlainLabel(s);
    ClassifyUnrecognised(s);
  }

  /** Two labels with the same key are ordered by the lexical tie-break: "bbb" after "aaa". */
  lemma TieBreak(x: string, y: string)
    requires x == "bbb" && y == "aaa"
    ensures StayCompare(x, y) == Gt
  {
    UnknownLabel(x);
    UnknownLabel(y);
    StayCompareByKey(x, y);
    assert x[0] == 'b' && y[0] == 'a';
  }

  /** A field holding one token. */
  lemma OneToken(t: string)
    requires t != [] && Trimmed(t) && NoSeparator(t)
    ensures SplitMulti(Some(t)) == [t]
  {
    SplitRunsLast(t);
    assert TrimAll([t]) == [t];
    FilterAll(NonEmpty, [t]);
  }

  /** A field holding two tokens, one separator run between them and white space after it. */
  lemma TwoTokens(a: string, run: string, sp: string, b: string)
    requires a != [] && Trimmed(a) && NoSeparator(a)
    requires b != [] && Trimmed(b) && NoSeparator(b)
    requires run != [] && AllSeparators(run) && AllSpace(sp)
    ensures SplitMulti(Some(a + run + sp + b)) == [a, b]
  {
    JoinTrimmed(a, run, sp, b);
    TwoPieces(a, run, sp, b);
    TrimAfterSpace(sp, b);
    TokensOfPieces(a + run + sp + b, a, sp + b, b);
  }

  lemma JoinTrimmed(a: string, run: string, sp: string, b: string)
    requires a != [] && Trimmed(a) && b != [] && Trimmed(b)
    ensures a + run + sp + b != [] && Trimmed(a + run + sp + b)
  {
    var s := a + run + sp + b;
    assert s[0] == a[0] && s[|s| - 1] == b[|b| - 1];
  }

  lemma TokensOfPieces(s: string, a: string, x: string, b: string)
    requires s != [] && Trimmed(s) && SplitRuns(s) == [a, x]
    requires a != [] && Trim(a) == a && b != [] && Trim(x) == b
    ensures SplitMulti(Some(s)) == [a, b]
  {
    assert TrimAll([a, x]) == [a, b];
    FilterAll(NonEmpty, [a, b]);
    SplitMultiPieces(Some(s));
  }

  lemma TwoPieces(a: string, run: string, sp: string, b: string)
    requires NoSeparator(a) && NoSeparator(b) && run != [] && AllSeparators(run) && AllSpace(sp)
    ensures SplitRuns(a + run + sp + b) == [a, sp + b]
  {
    assert a + run + sp + b == a + run + (sp + b);
    SplitRunsStep(a, run, sp + b);
    SplitRunsLast(sp + b);
  }

  lemma TrimAfterSpace(sp: string, b: string)
    requires AllSpace(sp) && Trimmed(b)
    ensures Trim(sp + b) == b
  {
    assert sp + b == sp + b + [];
    TrimUnique(sp + b, sp, b, []);
  }

  /** A token as `splitMulti` returns it: non-empty, trimmed, free of separators. */
  predicate Plain(t: string) {
    t != [] && Trimmed(t) && NoSeparator(t)
  }

  lemma FiveRuns(a: string, b: string, c: string, d: string, e: string)
    requires Plain(a) && Plain(b) && Plain(c) && Plain(d) && Plain(e)
    ensures SplitRuns(a + "," + ((" " + b) + ";" + (c + "/" + (d + "|" + e)))) == [a, " " + b, c, d, e]
  {
    var t4 := d + "|" + e;
    var t3 := c + "/" + t4;
    var b' := " " + b;
    SplitRunsLast(e);
    RunThen(d, "|", e, [e]);
    RunThen(c, "/", t4, [d] + [e]);
    assert NoSeparator(b');
    RunThen(b', ";", t3, [c] + ([d] + [e]));
    RunThen(a, ",", b' + ";" + t3, [b'] + ([c] + ([d] + [e])));
    ListOfFive(a, b', c, d, e);
  }

  /** One more piece in front of a split whose result is known. */
  lemma RunThen(piece: string, sep: string, rest: string, tail: seq<string>)
    requires NoSeparator(piece) && |sep| == 1 && IsSeparator(sep[0])
    requires rest != [] && !IsSeparator(rest[0]) && SplitRuns(rest) == tail
    ensures SplitRuns(piece + sep + rest) == [piece] + tail
  {
    SplitRunsStep(piece, sep, rest);
  }

  lemma ListOfFive<T>(a: T, b: T, c: T, d: T, e: T)
    ensures [a] + ([b] + ([c] + ([d] + [e]))) == [a, b, c, d, e]
  {
  }

  /** Each of the four separators splits the field, and the white space after a separator is
      trimmed from the token that follows. */
  lemma FiveTokensOf(a: string, b: string, c: string, d: string, e: string)
    requires Plain(a) && Plain(b) && Plain(c) && Plain(d) && Plain(e)
    ensures SplitMulti(Some(a + ", " + b + ";" + c + "/" + d + "|" + e)) == [a, b, c, d, e]
  {
    var s := a + "," + ((" " + b) + ";" + (c + "/" + (d + "|" + e)));
    Regroup(a, b, c, d, e);
    assert s[0] == a[0] && s[|s| - 1] == e[|e| - 1];
    FiveRuns(a, b, c, d, e);
    TrimAfterSpace(" ", b);
    FivePieces(s, a, " " + b, b, c, d, e);
  }

  lemma Regroup(a: string, b: string, c: string, d: string, e: string)
    ensures a + ", " + b + ";" + c + "/" + d + "|" + e ==
      a + "," + ((" " + b) + ";" + (c + "/" + (d + "|" + e)))
  {
    assert ", " == "," + " ";
  }

  lemma FivePieces(s: string, a: string, x: string, b: string, c: string, d: string, e: string)
    requires s != [] && Trimmed(s) && SplitRuns(s) == [a, x, c, d, e]
    requires Plain(a) && Plain(b) && Plain(c) && Plain(d) && Plain(e) && Trim(x) == b
    ensures SplitMulti(Some(s)) == [a, b, c, d, e]
  {
    FiveTrimmed(a, x, b, c, d, e);
    FilterAll(NonEmpty, [a, b, c, d, e]);
    SplitMultiPieces(Some(s));
  }

  /** The field "1980s, 1990s;2000s/2010s|2020s" has the five decades as its tokens. */
  lemma FiveTokens(a: string, b: string, c: string, d: string, e: string)
    requires a == "1980s" && b == "1990s" && c == "2000s" && d == "2010s" && e == "2020s"
    ensures SplitMulti(Some(a + ", " + b + ";" + c + "/" + d + "|" + e)) == [a, b, c, d, e]
  {
    FiveTokensOf(a, b, c, d, e);
  }

  /** Empty, blank and separator-only fields have no tokens. */
  lemma NoTokens(v: string)
    requires v == "" || v == "   " || v == " , ; / | "
    ensures SplitMulti(Some(v)) == []
  {
    assert Blank(v);
    SplitMultiEmpty(Some(v));
  }

  lemma FiveTrimmed(a: string, x: string, b: string, c: string, d: string, e: string)
    requires Trimmed(a) && Trimmed(c) && Trimmed(d) && Trimmed(e) && Trim(x) == b
    ensures TrimAll([a, x, c, d, e]) == [a, b, c, d, e]
  {
  }

  /** The stay labels of the list-building example, each with its key. */
  lemma OneMonth(s: string)
    requires s == "1 mo"
    ensures DurationSortKey(Some(s)) == Months(1)
  {
    PlainLabel(s);
    OneMonthText();
    ClassifyMonths(Decimal(1), " ", "");
    DecimalValue(1);
  }

  lemma ThreeToFiveMonths(s: string)
    requires s == "3-5 mos"
    ensures DurationSortKey(Some(s)) == Months(3)
  {
    PlainLabel(s);
    ThreeToFiveMonthsText();
    ClassifyMonthRange(Decimal(3), "", "", Decimal(5), " ", "s");
    DecimalValue(3);
  }

  lemma OneYear(s: string)
    requires s == "1 yr"
    ensures DurationSortKey(Some(s)) == Months(12)
  {
    PlainLabel(s);
    OneYearText();
    ClassifyYears(Decimal(1), " ", "");
    DecimalValue(1);
  }

  lemma TwoYears(s: string)
    requires s == "2 yrs"
    ensures DurationSortKey(Some(s)) == Months(24)
  {
    PlainLabel(s);
    TwoYearsText();
    ClassifyYears(Decimal(2), " ", "s");
    DecimalValue(2);
  }

  lemma MoreThanTwenty(s: string)
    requires s == "> 20 yrs"
    ensures DurationSortKey(Some(s)) == Months(246)
  {
    PlainLabel(s);
    MoreThanTwentyText();
    ClassifyMoreThanYears(Decimal(20), " ", " ", "s");
    DecimalValue(20);
  }

  lemma OneMonthText()
    ensures Decimal(1) + " " + "mo" + "" == "1 mo"
  {
  }

  /** Leading zeros are read as `parseInt` reads them: "03-05 mos" sorts with "3-5 mos". */
  lemma LeadingZeros(s: string)
    requires s == "03-05 mos"
    ensures DurationSortKey(Some(s)) == Months(3)
  {
    PlainLabel(s);
    LeadingZerosText();
    ZeroThree();
    ClassifyMonthRange("03", "", "", "05", " ", "s");
  }

  lemma LeadingZerosText()
    ensures "03" + "" + "-" + "" + "05" + " " + "mo" + "s" == "03-05 mos"
  {
  }

  lemma ZeroThree()
    ensures AllDigits("03") && AllDigits("05") && DigitsValue("03") == 3
  {
    assert "03"[..1] == "0";
  }

  lemma ThreeToFiveMonthsText()
    ensures Decimal(3) + "" + "-" + "" + Decimal(5) + " " + "mo" + "s" == "3-5 mos"
  {
  }

  lemma OneYearText()
    ensures Decimal(1) + " " + "yr" + "" == "1 yr"
  {
  }

  lemma TwoYearsText()
    ensures Decimal(2) + " " + "yr" + "s" == "2 yrs"
  {
  }

  lemma MoreThanTwentyText()
    ensures ">" + " " + Decimal(20) + " " + "yr" + "s" == "> 20 yrs"
  {
    assert Decimal(20) == "20";
  }

  /** `stayDurationSort` puts `x` strictly before `y`. */
  predicate StayLt(x: string, y: string) {
    StayCompare(x, y) == Lt
  }

  /** A label with a smaller key comes strictly first. */
  lemma KeyOrder(x: string, y: string, m: nat, n: nat)
    requires DurationSortKey(Some(x)) == Months(m) && DurationSortKey(Some(y)) == Months(n) && m < n
    ensures StayLt(x, y)
  {
  }

  lemma StayLtStrict()
    ensures forall x, y :: StayLt(x, y) ==> StayLe(x, y) && !StayLe(y, x)
    ensures forall x, y, z :: StayLt(x, y) && StayLt(y, z) ==> StayLt(x, z)
  {
    forall x, y | StayLt(x, y) ensures !StayLe(y, x) {
      StayLeTotalOrder(x, y, x);
    }
    forall x, y, z | StayLt(x, y) && StayLt(y, z) ensures StayLt(x, z) {
      StayLeTotalOrder(x, y, z);
      StayLeTotalOrder(x, z, y);
    }
  }

  /** A sequence whose every element is strictly before the next, under a transitive strict
      order `lt` that is contained in `le`, is sorted by `le`, free of duplicates, and no two of its
      elements are tied by `le`. */
  lemma ChainInOrder<T>(lt: (T, T) -> bool, le: (T, T) -> bool, s: seq<T>)
    requires forall x, y :: lt(x, y) ==> le(x, y) && !le(y, x)
    requires forall x, y, z :: lt(x, y) && lt(y, z) ==> lt(x, z)
    requires forall i :: 0 <= i < |s| - 1 ==> lt(s[i], s[i + 1])
    ensures Sorted(le, s) && NoDup(s)
    ensures forall x, y :: x in s && y in s && le(x, y) && le(y, x) ==> x == y
  {
    forall i, j | 0 <= i < j < |s| ensures lt(s[i], s[j]) {
      ChainLt(lt, s, i, j);
    }
  }

  lemma {:induction false} ChainLt<T>(lt: (T, T) -> bool, s: seq<T>, i: int, j: int)
    requires forall x, y, z :: lt(x, y) && lt(y, z) ==> lt(x, z)
    requires forall k :: 0 <= k < |s| - 1 ==> lt(s[k], s[k + 1])
    requires 0 <= i < j < |s|
    ensures lt(s[i], s[j])
    decreases j - i
  {
    if j > i + 1 {
      ChainLt(lt, s, i, j - 1);
    }
  }

  lemma SixInOrder<T>(lt: (T, T) -> bool, le: (T, T) -> bool, a: T, b: T, c: T, d: T, e: T, f: T)
    requires forall x, y :: lt(x, y) ==> le(x, y) && !le(y, x)
    requires forall x, y, z :: lt(x, y) && lt(y, z) ==> lt(x, z)
    requires lt(a, b) && lt(b, c) && lt(c, d) && lt(d, e) && lt(e, f)
    ensures Sorted(le, [a, b, c, d, e, f]) && NoDup([a, b, c, d, e, f])
  {
    ChainInOrder(lt, le, [a, b, c, d, e, f]);
  }

  lemma SevenInOrder<T>(lt: (T, T) -> bool, le: (T, T) -> bool, a: T, b: T, c: T, d: T, e: T, f: T, g: T)
    requires forall x, y :: lt(x, y) ==> le(x, y) && !le(y, x)
    requires forall x, y, z :: lt(x, y) && lt(y, z) ==> lt(x, z)
    requires lt(a, b) && lt(b, c) && lt(c, d) && lt(d, e) && lt(e, f) && lt(f, g)
    ensures var s := [a, b, c, d, e, f, g];
      && Sorted(le, s) && NoDup(s)
      && (forall x, y :: x in s && y in s && le(x, y) && le(y, x) ==> x == y)
  {
    ChainInOrder(lt, le, [a, b, c, d, e, f, g]);
  }

  /** The six labels in the order the list-building example expects are strictly ascending. */
  lemma StayListSorted(a: string, b: string, c: string, d: string, e: string, f: string)
    requires a == "1 mo" && b == "3-5 mos" && c == "1 yr"
    requires d == "2 yrs" && e == "10-19 yrs" && f == "> 20 yrs"
    ensures Sorted(StayLe, [a, b, c, d, e, f]) && NoDup([a, b, c, d, e, f])
  {
    OneMonth(a);
    ThreeToFiveMonths(b);
    OneYear(c);
    TwoYears(d);
    YearRangeKey(e);
    MoreThanTwenty(f);
    KeyOrder(a, b, 1, 3);
    KeyOrder(b, c, 3, 12);
    KeyOrder(c, d, 12, 24);
    KeyOrder(d, e, 24, 120);
    KeyOrder(e, f, 120, 246);
    StayLtStrict();
    SixInOrder(StayLt, StayLe, a, b, c, d, e, f);
  }

  /** The decade order puts `x` strictly before `y`. */
  predicate DecadeLt(x: string, y: string) {
    DecadeLe(x, y) && !DecadeLe(y, x)
  }

  lemma DecadeLtStrict()
    ensures forall x, y, z :: DecadeLt(x, y) && DecadeLt(y, z) ==> DecadeLt(x, z)
  {
    forall x, y, z | DecadeLt(x, y) && DecadeLt(y, z) ensures DecadeLt(x, z) {
      DecadeLeTotalPreorder(x, y, z);
      DecadeLeTotalPreorder(z, x, y);
    }
  }

  lemma Decade1970(s: string)
    requires s == "1970s"
    ensures LeadingInt(s) == Some(1970)
  {
    assert Decimal(1970) + "s" == s;
    DecadeToken(s, 1970);
  }

  lemma Decade1980(s: string)
    requires s == "1980s"
    ensures LeadingInt(s) == Some(1980)
  {
    assert Decimal(1980) + "s" == s;
    DecadeToken(s, 1980);
  }

  lemma Decade1990(s: string)
    requires s == "1990s"
    ensures LeadingInt(s) == Some(1990)
  {
    assert Decimal(1990) + "s" == s;
    DecadeToken(s, 1990);
  }

  lemma Decade2000(s: string)
    requires s == "2000s"
    ensures LeadingInt(s) == Some(2000)
  {
    assert Decimal(2000) + "s" == s;
    DecadeToken(s, 2000);
  }

  lemma Decade2010(s: string)
    requires s == "2010s"
    ensures LeadingInt(s) == Some(2010)
  {
    assert Decimal(2010) + "s" == s;
    DecadeToken(s, 2010);
  }

  lemma Decade2020(s: string)
    requires s == "2020s"
    ensures LeadingInt(s) == Some(2020)
  {
    assert Decimal(2020) + "s" == s;
    DecadeToken(s, 2020);
  }

  /** A token "Ns" reads as N. */
  lemma DecadeToken(s: string, n: nat)
    requires s == Decimal(n) + "s"
    ensures LeadingInt(s) == Some(n)
  {
    LeadingIntOfDecimal(n, "s");
  }

  /** The seven decade tokens in the order the list-building example expects: the numeric ones
      ascending, then "Unknown". No two of them tie. */
  lemma DecadeListSorted(a: string, b: string, c: string, d: string, e: string, f: string, g: string)
    requires a == "1970s" && b == "1980s" && c == "1990s" && d == "2000s"
    requires e == "2010s" && f == "2020s" && g == "Unknown"
    ensures var s := [a, b, c, d, e, f, g];
      && Sorted(DecadeLe, s) && NoDup(s)
      && (forall x, y :: x in s && y in s && DecadeLe(x, y) && DecadeLe(y, x) ==> x == y)
  {
    EarlyDecades(a, b, c);
    LateDecades(d, e, f);
    UnknownDecade(g);
    SevenDecades(a, b, c, d, e, f, g);
  }

  lemma UnknownDecade(g: string)
    requires g == "Unknown"
    ensures LeadingInt(g) == None
  {
    LeadingIntNone(g);
  }

  lemma EarlyDecades(a: string, b: string, c: string)
    requires a == "1970s" && b == "1980s" && c == "1990s"
    ensures LeadingInt(a) == Some(1970) && LeadingInt(b) == Some(1980) && LeadingInt(c) == Some(1990)
  {
    Decade1970(a);
    Decade1980(b);
    Decade1990(c);
  }

  lemma LateDecades(d: string, e: string, f: string)
    requires d == "2000s" && e == "2010s" && f == "2020s"
    ensures LeadingInt(d) == Some(2000) && LeadingInt(e) == Some(2010) && LeadingInt(f) == Some(2020)
  {
    Decade2000(d);
    Decade2010(e);
    Decade2020(f);
  }

  lemma SevenDecades(a: string, b: string, c: string, d: string, e: string, f: string, g: string)
    requires LeadingInt(a) == Some(1970) && LeadingInt(b) == Some(1980) && LeadingInt(c) == Some(1990)
    requires LeadingInt(d) == Some(2000) && LeadingInt(e) == Some(2010) && LeadingInt(f) == Some(2020)
    requires LeadingInt(g) == None
    ensures var s := [a, b, c, d, e, f, g];
      && Sorted(DecadeLe, s) && NoDup(s)
      && (forall x, y :: x in s && y in s && DecadeLe(x, y) && DecadeLe(y, x) ==> x == y)
  {
    assert DecadeLt(a, b) && DecadeLt(b, c) && DecadeLt(c, d) && DecadeLt(d, e) && DecadeLt(e, f);
    assert DecadeLt(f, g);
    DecadeLtStrict();
    SevenInOrder(DecadeLt, DecadeLe, a, b, c, d, e, f, g);
  }

  /** The stay list of records whose trimmed labels are `labels` is the duplicate-free sorted
      arrangement `t` of those labels. */
  lemma StaysAre(cities: seq<Cities.City>, labels: seq<string>, t: seq<string>)
    requires |labels| == |cities|
    requires forall k :: 0 <= k < |cities| ==> NormalizeToken(cities[k].stayDuration) == labels[k]
    requires forall x :: x in labels <==> x in t
    requires NoDup(t) && Sorted(StayLe, t) && (forall i :: 0 <= i < |t| ==> t[i] != [])
    ensures BuildFilterLists(cities).stays == t
  {
    forall x ensures x in t <==> x in BuildFilterLists(cities).stays {
      BuildFilterListsMembers(cities, x);
      if x in t {
        var k :| 0 <= k < |labels| && labels[k] == x;
        assert cities[k] in cities;
      }
      if x in BuildFilterLists(cities).stays {
        var c :| c in cities && NormalizeToken(c.stayDuration) == x;
        var k :| 0 <= k < |cities| && cities[k] == c;
        assert labels[k] == x;
      }
    }
    StaysUnique(cities, t);
  }

  /** The decade list of records whose decade tokens are `tokens` is the duplicate-free sorted
      arrangement `t` of those tokens, when no two of them tie. */
  lemma DecadesAre(cities: seq<Cities.City>, tokens: seq<seq<string>>, t: seq<string>)
    requires |tokens| == |cities|
    requires forall k :: 0 <= k < |cities| ==> SplitMulti(cities[k].decades) == tokens[k]
    requires forall x :: x in t <==> exists k :: 0 <= k < |tokens| && x in tokens[k]
    requires NoDup(t) && Sorted(DecadeLe, t)
    requires forall x, y :: x in t && y in t && DecadeLe(x, y) && DecadeLe(y, x) ==> x == y
    ensures BuildFilterLists(cities).decades == t
  {
    forall x ensures x in t <==> x in BuildFilterLists(cities).decades {
      BuildFilterListsMembers(cities, x);
      if x in t {
        var k :| 0 <= k < |tokens| && x in tokens[k];
        assert cities[k] in cities;
      }
      if x in BuildFilterLists(cities).decades {
        var c :| c in cities && x in SplitMulti(c.decades);
        var k :| 0 <= k < |cities| && cities[k] == c;
        assert x in tokens[k];
      }
    }
    DecadesUnique(cities, t);
  }

  /** Six records whose stay fields hold the trimmed labels `l0` to `l5`. */
  lemma SixLabels(cities: seq<Cities.City>, l0: string, l1: string, l2: string, l3: string, l4: string, l5: string)
    requires |cities| == 6
    requires cities[0].stayDuration == Some(l0) && cities[1].stayDuration == Some(l1)
    requires cities[2].stayDuration == Some(l2) && cities[3].stayDuration == Some(l3)
    requires cities[4].stayDuration == Some(l4) && cities[5].stayDuration == Some(l5)
    requires Trimmed(l0) && Trimmed(l1) && Trimmed(l2) && Trimmed(l3) && Trimmed(l4) && Trimmed(l5)
    ensures forall k :: 0 <= k < 6 ==> NormalizeToken(cities[k].stayDuration) == [l0, l1, l2, l3, l4, l5][k]
  {
  }

  lemma Reordered<T>(a: T, b: T, c: T, d: T, e: T, f: T)
    ensures forall x :: x in [b, a, d, f, c, e] <==> x in [a, b, c, d, e, f]
  {
  }

  /** The stay labels of the list-building example: records A to F with "3-5 mos", "1 mo",
      "2 yrs", "> 20 yrs", "1 yr" and "10-19 yrs" give the list "1 mo", "3-5 mos", "1 yr",
      "2 yrs", "10-19 yrs", "> 20 yrs". */
  lemma SampleStays(cities: seq<Cities.City>, a: string, b: string, c: string, d: string, e: string, f: string)
    requires a == "1 mo" && b == "3-5 mos" && c == "1 yr"
    requires d == "2 yrs" && e == "10-19 yrs" && f == "> 20 yrs"
    requires |cities| == 6
    requires cities[0].stayDuration == Some(b) && cities[1].stayDuration == Some(a)
    requires cities[2].stayDuration == Some(d) && cities[3].stayDuration == Some(f)
    requires cities[4].stayDuration == Some(c) && cities[5].stayDuration == Some(e)
    ensures BuildFilterLists(cities).stays == [a, b, c, d, e, f]
  {
    StayListSorted(a, b, c, d, e, f);
    SixLabels(cities, b, a, d, f, c, e);
    Reordered(a, b, c, d, e, f);
    StaysAre(cities, [b, a, d, f, c, e], [a, b, c, d, e, f]);
  }

  lemma PairField(v: string, x: string, run: string, sp: string, y: string)
    requires v == x + run + sp + y
    requires Plain(x) && Plain(y) && run != [] && AllSeparators(run) && AllSpace(sp)
    ensures SplitMulti(Some(v)) == [x, y]
  {
    TwoTokens(x, run, sp, y);
  }

  lemma CommaField(v: string, x: string, y: string)
    requires v == "1990s, 2000s" && x == "1990s" && y == "2000s"
    ensures SplitMulti(Some(v)) == [x, y]
  {
    PairField(v, x, ",", " ", y);
  }

  lemma BarField(v: string, x: string, y: string)
    requires v == "2010s|2020s" && x == "2010s" && y == "2020s"
    ensures SplitMulti(Some(v)) == [x, y]
  {
    PairField(v, x, "|", "", y);
  }

  lemma SemicolonField(v: string, x: string, y: string)
    requires v == "1970s; 1980s" && x == "1970s" && y == "1980s"
    ensures SplitMulti(Some(v)) == [x, y]
  {
    PairField(v, x, ";", " ", y);
  }

  lemma SingleField(x: string)
    requires x == "1980s" || x == "2000s" || x == "Unknown"
    ensures SplitMulti(Some(x)) == [x]
  {
    OneToken(x);
  }

  /** Six records whose decades fields split into `t0` to `t5`. */
  lemma SixTokens(cities: seq<Cities.City>, t0: seq<string>, t1: seq<string>, t2: seq<string>,
                  t3: seq<string>, t4: seq<string>, t5: seq<string>)
    requires |cities| == 6
    requires SplitMulti(cities[0].decades) == t0 && SplitMulti(cities[1].decades) == t1
    requires SplitMulti(cities[2].decades) == t2 && SplitMulti(cities[3].decades) == t3
    requires SplitMulti(cities[4].decades) == t4 && SplitMulti(cities[5].decades) == t5
    ensures forall k :: 0 <= k < 6 ==> SplitMulti(cities[k].decades) == [t0, t1, t2, t3, t4, t5][k]
  {
    var tokens := [t0, t1, t2, t3, t4, t5];
    forall k | 0 <= k < 6 ensures SplitMulti(cities[k].decades) == tokens[k] {
      if k == 0 { assert tokens[0] == t0; }
      else if k == 1 { assert tokens[1] == t1; }
      else if k == 2 { assert tokens[2] == t2; }
      else if k == 3 { assert tokens[3] == t3; }
      else if k == 4 { assert tokens[4] == t4; }
      else { assert tokens[5] == t5; }
    }
  }

  /** The tokens of the example's records, taken together, are the seven decades. */
  lemma Gathered<T>(a: T, b: T, c: T, d: T, e: T, f: T, g: T)
    ensures var tokens := [[c, d], [b], [e, f], [a, b], [d], [g]];
      forall x :: x in [a, b, c, d, e, f, g] <==> exists k :: 0 <= k < |tokens| && x in tokens[k]
  {
    var tokens := [[c, d], [b], [e, f], [a, b], [d], [g]];
    forall x | x in [a, b, c, d, e, f, g]
      ensures exists k :: 0 <= k < |tokens| && x in tokens[k]
    {
      if x == a { assert x in tokens[3]; }
      else if x == b { assert x in tokens[1]; }
      else if x == c { assert x in tokens[0]; }
      else if x == d { assert x in tokens[4]; }
      else if x == e { assert x in tokens[2]; }
      else if x == f { assert x in tokens[2]; }
      else { assert x in tokens[5]; }
    }
  }

  /** Seven tokens in decade order, spread over six records as in the list-building example,
      make up the decade list in that order. */
  lemma DecadesOfSix(cities: seq<Cities.City>, a: string, b: string, c: string, d: string,
                     e: string, f: string, g: string)
    requires |cities| == 6
    requires SplitMulti(cities[0].decades) == [c, d] && SplitMulti(cities[1].decades) == [b]
    requires SplitMulti(cities[2].decades) == [e, f] && SplitMulti(cities[3].decades) == [a, b]
    requires SplitMulti(cities[4].decades) == [d] && SplitMulti(cities[5].decades) == [g]
    requires var s := [a, b, c, d, e, f, g];
      && Sorted(DecadeLe, s) && NoDup(s)
      && (forall x, y :: x in s && y in s && DecadeLe(x, y) && DecadeLe(y, x) ==> x == y)
    ensures BuildFilterLists(cities).decades == [a, b, c, d, e, f, g]
  {
    SixTokens(cities, [c, d], [b], [e, f], [a, b], [d], [g]);
    Gathered(a, b, c, d, e, f, g);
    DecadesAre(cities, [[c, d], [b], [e, f], [a, b], [d], [g]], [a, b, c, d, e, f, g]);
  }

  /** The decade list of the list-building example: records with "1990s, 2000s", "1980s",
      "2010s|2020s", "1970s; 1980s", "2000s" and "Unknown" give "1970s" to "2020s" ascending,
      then "Unknown". */
  lemma SampleDecades(cities: seq<Cities.City>, a: string, b: string, c: string, d: string,
                      e: string, f: string, g: string)
    requires a == "1970s" && b == "1980s" && c == "1990s" && d == "2000s"
    requires e == "2010s" && f == "2020s" && g == "Unknown"
    requires |cities| == 6
    requires cities[0].decades == Some("1990s, 2000s") && cities[1].decades == Some("1980s")
    requires cities[2].decades == Some("2010s|2020s") && cities[3].decades == Some("1970s; 1980s")
    requires cities[4].decades == Some("2000s") && cities[5].decades == Some("Unknown")
    ensures BuildFilterLists(cities).decades == [a, b, c, d, e, f, g]
  {
    CommaField(cities[0].decades.value, c, d);
    SingleField(cities[1].decades.value);
    BarField(cities[2].decades.value, e, f);
    SemicolonField(cities[3].decades.value, a, b);
    SingleField(cities[4].decades.value);
    SingleField(cities[5].decades.value);
    DecadeListSorted(a, b, c, d, e, f, g);
    DecadesOfSix(cities, a, b, c, d, e, f, g);
  }

  lemma FilterThree<T(!new)>(p: T -> bool, x: T, y: T, z: T)
    ensures Filter(p, [x, y, z]) ==
      (if p(x) then [x] else []) + (if p(y) then [y] else []) + (if p(z) then [z] else [])
  {
    var px, py, pz := (if p(x) then [x] else []), (if p(y) then [y] else []), (if p(z) then [z] else []);
    assert [z][1..] == [];
    assert Filter(p, [z]) == pz + [];
    assert [y, z][1..] == [z];
    assert Filter(p, [y, z]) == py + pz;
    assert [x, y, z][1..] == [y, z];
    assert Filter(p, [x, y, z]) == px + (py + pz);
  }

  /** The view of three records is the ones of them that pass, in order. */
  lemma ViewOfThree(a: Cities.City, b: Cities.City, c: Cities.City, stay: Option<string>, decade: Option<string>)
    ensures FilteredCities(Some([a, b, c]), stay, decade) ==
      (if Keep(a, stay, decade) then [a] else []) + (if Keep(b, stay, decade) then [b] else [])
        + (if Keep(c, stay, decade) then [c] else [])
  {
    FilterThree((x: Cities.City) => Keep(x, stay, decade), a, b, c);
  }

  lemma SemicolonPair(v: string, x: string, y: string)
    requires v == "1980s;1990s" && x == "1980s" && y == "1990s"
    ensures SplitMulti(Some(v)) == [x, y]
  {
    PairField(v, x, ";", "", y);
  }

  lemma Single2010s(v: string)
    requires v == "2010s"
    ensures SplitMulti(Some(v)) == [v]
  {
    OneToken(v);
  }

  lemma StayLabel(v: string)
    requires v == "1 mo" || v == "2 mos"
    ensures NormalizeToken(Some(v)) == v
  {
  }

  lemma Distinct(one: string, two: string, d90: string, d00: string, d10: string)
    requires one == "1 mo" && two == "2 mos" && d90 == "1990s" && d00 == "2000s" && d10 == "2010s"
    ensures one != two && d90 != d10 && d00 != d10
  {
    assert one[0] != two[0];
    assert d90[1] != d10[1];
    assert d00[2] != d10[2];
  }

  /** Which of the three records pass each selection of the filtering example. */
  lemma ThreeVerdicts(a: Cities.City, b: Cities.City, c: Cities.City,
                      one: string, two: string, d80: string, d90: string, d00: string, d10: string)
    requires one != two && d90 != d10 && d00 != d10 && one != [] && d90 != [] && d00 != []
    requires NormalizeToken(a.stayDuration) == one && RecordDecades(a) == [d90, d00]
    requires NormalizeToken(b.stayDuration) == two && RecordDecades(b) == [d80, d90]
    requires NormalizeToken(c.stayDuration) == one && RecordDecades(c) == [d10]
    ensures Keep(a, Some(one), None) && !Keep(b, Some(one), None) && Keep(c, Some(one), None)
    ensures Keep(a, None, Some(d90)) && Keep(b, None, Some(d90)) && !Keep(c, None, Some(d90))
    ensures Keep(a, Some(one), Some(d00)) && !Keep(b, Some(one), Some(d00)) && !Keep(c, Some(one), Some(d00))
  {
  }

  /** Three records whose stay labels and decade tokens are those of the filtering example, in
      terms of the values alone: the view each selection gives. */
  lemma ViewOfFields(a: Cities.City, b: Cities.City, c: Cities.City,
                     one: string, two: string, d80: string, d90: string, d00: string, d10: string)
    requires one != two && d90 != d10 && d00 != d10 && one != [] && d90 != [] && d00 != []
    requires NormalizeToken(a.stayDuration) == one && SplitMulti(a.decades) == [d90, d00]
    requires NormalizeToken(b.stayDuration) == two && SplitMulti(b.decades) == [d80, d90]
    requires NormalizeToken(c.stayDuration) == one && SplitMulti(c.decades) == [d10]
    ensures FilteredCities(Some([a, b, c]), None, None) == [a, b, c]
    ensures FilteredCities(Some([a, b, c]), Some(one), None) == [a, c]
    ensures FilteredCities(Some([a, b, c]), None, Some(d90)) == [a, b]
    ensures FilteredCities(Some([a, b, c]), Some(one), Some(d00)) == [a]
  {
    ThreeVerdicts(a, b, c, one, two, d80, d90, d00, d10);
    FilteredNoFilters([a, b, c]);
    ViewOfThree(a, b, c, Some(one), None);
    ViewOfThree(a, b, c, None, Some(d90));
    ViewOfThree(a, b, c, Some(one), Some(d00));
  }

  /** The filtering example: records A ("1 mo"; "1990s, 2000s"), B ("2 mos"; "1980s;1990s") and
      C ("1 mo"; "2010s"). No selection keeps all three, "1 mo" keeps A and C, "1990s" keeps A
      and B, and "1 mo" with "2000s" keeps A alone. */
  lemma SampleView(a: Cities.City, b: Cities.City, c: Cities.City,
                   one: string, two: string, d80: string, d90: string, d00: string, d10: string)
    requires one == "1 mo" && two == "2 mos"
    requires d80 == "1980s" && d90 == "1990s" && d00 == "2000s" && d10 == "2010s"
    requires a.stayDuration == Some(one) && a.decades == Some("1990s, 2000s")
    requires b.stayDuration == Some(two) && b.decades == Some("1980s;1990s")
    requires c.stayDuration == Some(one) && c.decades == Some(d10)
    ensures FilteredCities(Some([a, b, c]), None, None) == [a, b, c]
    ensures FilteredCities(Some([a, b, c]), Some(one), None) == [a, c]
    ensures FilteredCities(Some([a, b, c]), None, Some(d90)) == [a, b]
    ensures FilteredCities(Some([a, b, c]), Some(one), Some(d00)) == [a]
  {
    StayLabel(one);
    StayLabel(two);
    CommaField(a.decades.value, d90, d00);
    SemicolonPair(b.decades.value, d80, d90);
    Single2010s(d10);
    Distinct(one, two, d90, d00, d10);
    ViewOfFields(a, b, c, one, two, d80, d90, d00, d10);
  }

  /** Of four records, the two with unusable coordinates are dropped. */
  lemma TwoOfFour(c1: Cities.City, c2: Cities.City, bad1: Cities.City, bad2: Cities.City)
    requires Cities.HasValidCoordinates(c1) && Cities.HasValidCoordinates(c2)
    requires !Cities.HasValidCoordinates(bad1) && !Cities.HasValidCoordinates(bad2)
    ensures Cities.ValidCities([c1, c2, bad1, bad2]) == [c1, c2]
  {
    var p := Cities.HasValidCoordinates;
    assert [bad2][1..] == [];
    assert Filter(p, [bad2]) == [];
    assert [bad1, bad2][1..] == [bad2];
    assert Filter(p, [bad1, bad2]) == [];
    assert [c2, bad1, bad2][1..] == [bad1, bad2];
    assert Filter(p, [c2, bad1, bad2]) == [c2];
    assert [c1, c2, bad1, bad2][1..] == [c2, bad1, bad2];
  }

  /** The loading example: records A and B with usable coordinates, one with a `NaN` latitude
      and one with an infinite longitude. The first subscriber is expected to receive A and B;
      as written it receives all four records, and with the intended delivery it receives A
      and B, the records the store keeps. */
  lemma LoadWithInvalidCoordinates(st: Store.Store, c1: Cities.City, c2: Cities.City,
                                   bad1: Cities.City, bad2: Cities.City)
    requires st.cities == []
    requires c1.lat.Finite? && c1.lon.Finite? && c2.lat.Finite? && c2.lon.Finite?
    requires bad1.lat == Cities.NaN && bad2.lon == Cities.PosInfinity
    ensures var first := Store.EnsureLoaded(st);
      && |Store.Received(first.1, [c1, c2, bad1, bad2])| == 4
      && Store.ReceivedCorrected(first.1, [c1, c2, bad1, bad2]) == [c1, c2]
      && Store.OnSuccess(first.0, [c1, c2, bad1, bad2]).cities == [c1, c2]
  {
    TwoOfFour(c1, c2, bad1, bad2);
    Store.FirstLoadUnfiltered(st, [c1, c2, bad1, bad2], 2);
  }
}

=== FILE: filterlists.dfy ===
/** `buildFilterLists`: the option lists of the two filter drop-downs, derived from the loaded
    records. */
module FilterLists {
  import opened Wrappers
  import opened Text
  import opened Seqs
  import opened Orders
  import opened Sorting
  import opened Splitter
  import opened Duration
  import opened Decades
  import opened Cities

  datatype Lists = Lists(stays: seq<string>, decades: seq<string>)

  /** The normalised stay label of every record that has a non-blank one, in record order: what
      the loop adds to the stay set. */
  function StayLabels(cities: seq<City>): (r: seq<string>)
    ensures forall i :: 0 <= i < |r| ==> r[i] != []
  {
    if cities == [] then []
    else
      var stay := NormalizeToken(cities[0].stayDuration);
      (if stay == [] then [] else [stay]) + StayLabels(cities[1..])
  }

  /** Every decade token of every record, in record order: what the loop adds to the decade set. */
  function DecadeTokens(cities: seq<City>): (r: seq<string>)
  {
    if cities == [] then [] else SplitMulti(cities[0].decades) + DecadeTokens(cities[1..])
  }

  lemma {:induction false} StayLabelsMembers(cities: seq<City>, x: string)
    ensures x in StayLabels(cities) <==>
      x != [] && exists c :: c in cities && NormalizeToken(c.stayDuration) == x
  {
    if cities != [] {
      StayLabelsMembers(cities[1..], x);
      assert forall c :: c in cities <==> c == cities[0] || c in cities[1..];
    }
  }

  lemma {:induction false} DecadeTokensMembers(cities: seq<City>, x: string)
    ensures x in DecadeTokens(cities) <==> exists c :: c in cities && x in SplitMulti(c.decades)
  {
    if cities != [] {
      DecadeTokensMembers(cities[1..], x);
      assert forall c :: c in cities <==> c == cities[0] || c in cities[1..];
    }
  }

  lemma StayOrder()
    ensures TotalPreorder(StayLe)
    ensures forall a, b :: StayLe(a, b) && StayLe(b, a) ==> a == b
  {
    forall a, b, c {
      StayLeTotalOrder(a, b, c);
    }
  }

  lemma DecadeOrder()
    ensures TotalPreorder(DecadeLe)
  {
    forall a, b, c {
      DecadeLeTotalPreorder(a, b, c);
    }
  }

  /** `buildFilterLists(cities)`: the distinct stay labels sorted by `stayDurationSort`, and the
      distinct decade tokens sorted by the decade order. Each list is first collected in the
      order the values are first met, as a JavaScript `Set` keeps them, and then sorted stably. */
  function BuildFilterLists(cities: seq<City>): (r: Lists)
    ensures NoDup(r.stays) && NoDup(r.decades)
    ensures Sorted(StayLe, r.stays) && Sorted(DecadeLe, r.decades)
    ensures multiset(r.stays) == multiset(Dedup(StayLabels(cities)))
    ensures multiset(r.decades) == multiset(Dedup(DecadeTokens(cities)))
  {
    StayOrder();
    DecadeOrder();
    var stays := Dedup(StayLabels(cities));
    var decades := Dedup(DecadeTokens(cities));
    PermutationNoDup(stays, Sort(StayLe, stays));
    PermutationNoDup(decades, Sort(DecadeLe, decades));
    Lists(Sort(StayLe, stays), Sort(DecadeLe, decades))
  }

  /** The stay list holds exactly the non-blank trimmed stay labels of the records, and the
      decade list exactly the tokens `splitMulti` finds in their decades fields. */
  lemma BuildFilterListsMembers(cities: seq<City>, x: string)
    ensures x in BuildFilterLists(cities).stays <==>
      x != [] && exists c :: c in cities && NormalizeToken(c.stayDuration) == x
    ensures x in BuildFilterLists(cities).decades <==>
      exists c :: c in cities && x in SplitMulti(c.decades)
  {
    var r := BuildFilterLists(cities);
    assert x in r.stays <==> x in multiset(r.stays);
    assert x in r.decades <==> x in multiset(r.decades);
    StayLabelsMembers(cities, x);
    DecadeTokensMembers(cities, x);
  }

  /** The stay list is strictly ascending under `stayDurationSort`, and in particular its keys
      never decrease. */
  lemma StaysAscending(cities: seq<City>, i: int, j: int)
    requires 0 <= i < j < |BuildFilterLists(cities).stays|
    ensures var stays := BuildFilterLists(cities).stays;
      && StayCompare(stays[i], stays[j]) == Lt
      && !KeyLess(DurationSortKey(Some(stays[j])), DurationSortKey(Some(stays[i])))
  {
    var stays := BuildFilterLists(cities).stays;
    StayCompareByKey(stays[i], stays[j]);
    StayCompareByKey(stays[j], stays[i]);
    LexFlip(stays[i], stays[j]);
  }

  /** No other arrangement of the stay labels is duplicate-free and sorted: the list is the one
      sequence with these properties. */
  lemma StaysUnique(cities: seq<City>, t: seq<string>)
    requires NoDup(t) && Sorted(StayLe, t)
    requires forall x :: x in t <==> x in BuildFilterLists(cities).stays
    ensures t == BuildFilterLists(cities).stays
  {
    StayOrder();
    SortedSetUnique(StayLe, t, BuildFilterLists(cities).stays);
  }

  /** When no two of its tokens tie, the decade list is likewise the one duplicate-free sorted
      arrangement of the tokens. */
  lemma DecadesUnique(cities: seq<City>, t: seq<string>)
    requires NoDup(t) && Sorted(DecadeLe, t)
    requires forall x :: x in t <==> x in BuildFilterLists(cities).decades
    requires forall x, y :: x in t && y in t && DecadeLe(x, y) && DecadeLe(y, x) ==> x == y
    ensures t == BuildFilterLists(cities).decades
  {
    SortedSetUnique(DecadeLe, t, BuildFilterLists(cities).decades);
  }

  /** In the decade list, tokens with a leading number come before the others and ascend by it. */
  lemma DecadesAscending(cities: seq<City>, i: int, j: int)
    requires 0 <= i < j < |BuildFilterLists(cities).decades|
    ensures var d := BuildFilterLists(cities).decades;
      && (LeadingInt(d[j]).Some? ==> LeadingInt(d[i]).Some?)
      && (LeadingInt(d[i]).Some? && LeadingInt(d[j]).Some? ==>
            LeadingInt(d[i]).value <= LeadingInt(d[j]).value)
  {
    var d := BuildFilterLists(cities).decades;
    assert DecadeLe(d[i], d[j]);
  }
}

=== FILE: filters.dfy ===
/** The filter selections (`setStayDurationFilter`, `setDecadeFilter`) and the `filteredCities$`
    view they select. */
module Filters {
  import opened Wrappers
  import opened Text
  import opened Seqs
  import opened Splitter
  import opened Cities

  /** What both filter setters store for `value`: the value trimmed, with `null` and a blank
      value both becoming "no filter". */
  function NormalizeFilter(value: Option<string>): (r: Option<string>)
    ensures r.Some? ==> r.value != [] && Trimmed(r.value)
    ensures r.None? <==> AllSpace(value.GetOr(""))
  {
    var v := Trim(value.GetOr(""));
    TrimEmpty(value.GetOr(""));
    if v == [] then None else Some(v)
  }

  /** Setting a stored filter again stores it unchanged. */
  lemma NormalizeFilterIdempotent(value: Option<string>)
    ensures NormalizeFilter(NormalizeFilter(value)) == NormalizeFilter(value)
  {
  }

  /** The values a setter can store are exactly "no filter" and the non-empty trimmed strings:
      those are left as they are. */
  lemma NormalizeFilterFixed(value: Option<string>)
    ensures NormalizeFilter(value) == value <==>
      value.None? || (value.value != [] && Trimmed(value.value))
  {
  }

  /** White space around a selection does not change what is stored. */
  lemma NormalizeFilterPadding(pre: string, s: string, post: string)
    requires AllSpace(pre) && AllSpace(post)
    ensures NormalizeFilter(Some(pre + s + post)) == NormalizeFilter(Some(s))
  {
    TrimPadded(pre, s, post);
  }

  /** The decade tokens the view reads from a record: `splitMulti` of the trimmed field, or none
      when the trimmed field is empty. */
  function RecordDecades(c: City): (r: seq<string>)
    ensures r == SplitMulti(c.decades)
  {
    var raw := NormalizeToken(c.decades);
    TrimIdempotent(c.decades.GetOr(""));
    if raw == [] then [] else SplitMulti(Some(raw))
  }

  /** `!stay || cStay === stay`: a missing or empty selection lets every record through. */
  predicate StayOk(c: City, stay: Option<string>) {
    stay.None? || stay.value == [] || NormalizeToken(c.stayDuration) == stay.value
  }

  /** `!decade || decades.includes(decade)`. */
  predicate DecadeOk(c: City, decade: Option<string>) {
    decade.None? || decade.value == [] || decade.value in RecordDecades(c)
  }

  predicate Keep(c: City, stay: Option<string>, decade: Option<string>) {
    StayOk(c, stay) && DecadeOk(c, decade)
  }

  /** `filteredCities$`: the records that pass both selections, in their order; no records at
      all (`null`) gives the empty view. */
  function FilteredCities(cities: Option<seq<City>>, stay: Option<string>, decade: Option<string>)
    : (r: seq<City>)
    ensures cities.None? ==> r == []
    ensures cities.Some? ==> |r| <= |cities.value|
  {
    if cities.None? then [] else Filter((c: City) => Keep(c, stay, decade), cities.value)
  }

  /** A record is in the view exactly when it is loaded and passes both selections. */
  lemma FilteredExactly(cities: seq<City>, stay: Option<string>, decade: Option<string>, c: City)
    ensures c in FilteredCities(Some(cities), stay, decade) <==> c in cities && Keep(c, stay, decade)
  {
    FilterMembers((c: City) => Keep(c, stay, decade), cities, c);
  }

  /** The view keeps the loaded order. */
  lemma FilteredInOrder(cities: seq<City>, stay: Option<string>, decade: Option<string>)
    ensures IsSubseq(FilteredCities(Some(cities), stay, decade), cities)
  {
    FilterIsSubseq((c: City) => Keep(c, stay, decade), cities);
  }

  /** With no selection the view is every loaded record. */
  lemma FilteredNoFilters(cities: seq<City>)
    ensures FilteredCities(Some(cities), None, None) == cities
  {
    FilterAll((c: City) => Keep(c, None, None), cities);
  }

  /** A record with no stay label never matches a stay selection, and one with no decades never
      matches a decade selection. */
  lemma FilteredMissingField(cities: seq<City>, stay: Option<string>, decade: Option<string>, c: City)
    requires || (c.stayDuration.None? && stay.Some? && stay.value != [])
             || (c.decades.None? && decade.Some? && decade.value != [])
    ensures c !in FilteredCities(Some(cities), stay, decade)
  {
    FilteredExactly(cities, stay, decade, c);
  }
}

=== FILE: orders.dfy ===
/** Three-way comparison results and the lexicographic order on strings. */
module Orders {

  /** The sign of a JavaScript comparator's result. */
  datatype Ordering = Lt | Eq | Gt {
    function Flip(): Ordering {
      match this
      case Lt => Gt
      case Eq => Eq
      case Gt => Lt
    }
  }

  /** Lexicographic comparison by character code, a prefix coming first. It stands in for the
      locale-aware `localeCompare` used as the store's tie-breaker. */
  function LexCompare(a: string, b: string): (r: Ordering)
    ensures r == Eq <==> a == b
  {
    if a == [] then (if b == [] then Eq else Lt)
    else if b == [] then Gt
    else if a[0] < b[0] then Lt
    else if a[0] > b[0] then Gt
    else
      var r := LexCompare(a[1..], b[1..]);
      assert a == [a[0]] + a[1..] && b == [b[0]] + b[1..];
      r
  }

  /** Swapping the arguments flips the answer. */
  lemma {:induction false} LexFlip(a: string, b: string)
    ensures LexCompare(b, a) == LexCompare(a, b).Flip()
  {
    if a != [] && b != [] && a[0] == b[0] {
      LexFlip(a[1..], b[1..]);
    }
  }

  lemma {:induction false} LexTransitive(a: string, b: string, c: string)
    requires LexCompare(a, b) == Lt && LexCompare(b, c) == Lt
    ensures LexCompare(a, c) == Lt
  {
    if a != [] && b != [] && c != [] && a[0] == b[0] == c[0] {
      LexTransitive(a[1..], b[1..], c[1..]);
    }
  }

  /** `a` comes no later than `b` in lexicographic order. */
  predicate LexLe(a: string, b: string) {
    LexCompare(a, b) != Gt
  }

  /** `LexLe` is a total order. */
  lemma LexLeTotalOrder(a: string, b: string, c: string)
    ensures LexLe(a, b) || LexLe(b, a)
    ensures LexLe(a, b) && LexLe(b, a) ==> a == b
    ensures LexLe(a, b) && LexLe(b, c) ==> LexLe(a, c)
  {
    LexFlip(a, b);
    if LexCompare(a, b) == Lt && LexCompare(b, c) == Lt {
      LexTransitive(a, b, c);
    }
  }
}

=== FILE: seqs.dfy ===
/** Sequence vocabulary shared by the store model: filtering, order-preserving sub-sequences,
    duplicate-free sequences, insertion-ordered sets and flattening. */
module Seqs {

  /** `a` can be obtained from `b` by deleting elements, keeping the rest in order. */
  predicate IsSubseq<T(==)>(a: seq<T>, b: seq<T>)
    decreases |b|
  {
    a == [] || (b != [] && ((a[0] == b[0] && IsSubseq(a[1..], b[1..])) || IsSubseq(a, b[1..])))
  }

  predicate NoDup<T(==)>(s: seq<T>) {
    forall i, j :: 0 <= i < j < |s| ==> s[i] != s[j]
  }

  /** `Array.prototype.filter`: the elements of `s` that satisfy `p`, in their order. */
  function Filter<T(!new)>(p: T -> bool, s: seq<T>): (r: seq<T>)
    ensures |r| <= |s|
    ensures forall i :: 0 <= i < |r| ==> p(r[i])
  {
    if s == [] then []
    else if p(s[0]) then [s[0]] + Filter(p, s[1..])
    else Filter(p, s[1..])
  }

  /** What the filter keeps is what satisfies the predicate. */
  lemma {:induction false} FilterMembers<T(!new)>(p: T -> bool, s: seq<T>, x: T)
    ensures x in Filter(p, s) <==> x in s && p(x)
  {
    if s != [] {
      FilterMembers(p, s[1..], x);
    }
  }

  /** Filtering keeps the order of what it keeps. */
  lemma {:induction false} FilterIsSubseq<T(!new)>(p: T -> bool, s: seq<T>)
    ensures IsSubseq(Filter(p, s), s)
  {
    if s != [] {
      FilterIsSubseq(p, s[1..]);
      if p(s[0]) {
        assert Filter(p, s)[1..] == Filter(p, s[1..]);
      }
    }
  }

  /** Filtering keeps every copy of what it keeps and no copy of what it drops. */
  lemma {:induction false} FilterCounts<T(!new)>(p: T -> bool, s: seq<T>)
    ensures forall x :: multiset(Filter(p, s))[x] == if p(x) then multiset(s)[x] else 0
  {
    if s != [] {
      FilterCounts(p, s[1..]);
      assert s == [s[0]] + s[1..];
    }
  }

  /** A filter that keeps everything is the identity. */
  lemma {:induction false} FilterAll<T(!new)>(p: T -> bool, s: seq<T>)
    requires forall i :: 0 <= i < |s| ==> p(s[i])
    ensures Filter(p, s) == s
  {
    if s != [] {
      FilterAll(p, s[1..]);
    }
  }

  /** Splitting by a predicate and its negation accounts for every element once. */
  lemma {:induction false} FilterComplement<T(!new)>(p: T -> bool, q: T -> bool, s: seq<T>)
    requires forall x :: q(x) == !p(x)
    ensures |Filter(p, s)| + |Filter(q, s)| == |s|
  {
    if s != [] {
      FilterComplement(p, q, s[1..]);
    }
  }

  /** A duplicate-free sequence holds each value at most once. */
  lemma {:induction false} NoDupCount<T>(s: seq<T>, x: T)
    requires NoDup(s)
    ensures multiset(s)[x] <= 1
  {
    if s != [] {
      assert s == [s[0]] + s[1..];
      NoDupCount(s[1..], x);
      if x == s[0] {
        assert x !in s[1..];
      }
    }
  }

  /** Rearranging a duplicate-free sequence cannot create a duplicate. */
  lemma PermutationNoDup<T>(a: seq<T>, b: seq<T>)
    requires NoDup(a) && multiset(a) == multiset(b)
    ensures NoDup(b)
  {
    forall i, j | 0 <= i < j < |b| ensures b[i] != b[j] {
      if b[i] == b[j] {
        assert b == b[..j] + b[j..];
        assert b[i] in b[..j] && b[j] in b[j..];
        assert multiset(b)[b[i]] >= 2;
        NoDupCount(a, b[i]);
      }
    }
  }

  /** Adding the elements of `xs` one by one to an insertion-ordered set `acc`, as a JavaScript
      `Set` does: an element already present is not added again. */
  function AddAll<T(==,!new)>(acc: seq<T>, xs: seq<T>): (r: seq<T>)
    requires NoDup(acc)
    ensures NoDup(r)
    ensures |acc| <= |r| && r[..|acc|] == acc
    ensures forall x :: x in r <==> x in acc || x in xs
    decreases |xs|
  {
    if xs == [] then acc
    else if xs[0] in acc then AddAll(acc, xs[1..])
    else AddAll(acc + [xs[0]], xs[1..])
  }

  /** Where `x` first occurs in `xs`. */
  function FirstIndex<T(==)>(xs: seq<T>, x: T): (k: nat)
    requires x in xs
    ensures k < |xs| && xs[k] == x
    ensures forall i :: 0 <= i < k ==> xs[i] != x
  {
    if xs[0] == x then 0 else 1 + FirstIndex(xs[1..], x)
  }

  /** Past its first element, `xs` is searched one position later. */
  lemma FirstIndexTail<T>(xs: seq<T>, x: T)
    requires xs != [] && x in xs[1..] && x != xs[0]
    ensures x in xs && FirstIndex(xs, x) == 1 + FirstIndex(xs[1..], x)
  {
  }

  /** Past the kept prefix `acc`, a duplicate-free `r` holds nothing from `acc`. */
  lemma PastPrefix<T>(r: seq<T>, acc: seq<T>, i: int)
    requires NoDup(r) && |acc| <= i < |r| && r[..|acc|] == acc
    ensures r[i] !in acc
  {
    forall k | 0 <= k < |acc|
      ensures acc[k] != r[i]
    {
      assert acc[k] == r[..|acc|][k] == r[k];
    }
  }

  /** What `AddAll` appends to `acc` comes from `xs`, in the order of first occurrence there. */
  lemma {:induction false} AddAllOrder<T(!new)>(acc: seq<T>, xs: seq<T>)
    requires NoDup(acc)
    ensures forall i, j :: |acc| <= i < j < |AddAll(acc, xs)| ==>
      && AddAll(acc, xs)[i] in xs && AddAll(acc, xs)[j] in xs
      && FirstIndex(xs, AddAll(acc, xs)[i]) < FirstIndex(xs, AddAll(acc, xs)[j])
    decreases |xs|
  {
    var r := AddAll(acc, xs);
    if xs != [] {
      var y, ys := xs[0], xs[1..];
      if y in acc {
        assert r == AddAll(acc, ys);
        AddAllOrder(acc, ys);
        forall i, j | |acc| <= i < j < |r|
          ensures r[i] in xs && r[j] in xs && FirstIndex(xs, r[i]) < FirstIndex(xs, r[j])
        {
          PastPrefix(r, acc, i);
          PastPrefix(r, acc, j);
          FirstIndexTail(xs, r[i]);
          FirstIndexTail(xs, r[j]);
        }
      } else {
        var acc' := acc + [y];
        assert r == AddAll(acc', ys);
        AddAllOrder(acc', ys);
        forall i, j | |acc| <= i < j < |r|
          ensures r[i] in xs && r[j] in xs && FirstIndex(xs, r[i]) < FirstIndex(xs, r[j])
        {
          PastPrefix(r, acc', j);
          assert r[j] != y;
          FirstIndexTail(xs, r[j]);
          if i == |acc| {
            assert r[i] == r[..|acc'|][i] == y;
          } else {
            PastPrefix(r, acc', i);
            FirstIndexTail(xs, r[i]);
          }
        }
      }
    }
  }

  /** The distinct elements of `xs`, each where it first occurs, as `Array.from(new Set(xs))`
      lists them. */
  function Dedup<T(==,!new)>(xs: seq<T>): (r: seq<T>)
    ensures NoDup(r)
    ensures forall x :: x in r <==> x in xs
    ensures forall i, j :: 0 <= i < j < |r| ==>
      r[i] in xs && r[j] in xs && FirstIndex(xs, r[i]) < FirstIndex(xs, r[j])
  {
    var none: seq<T> := [];
    AddAllOrder(none, xs);
    AddAll(none, xs)
  }

  /** Concatenation of a sequence of sequences. */
  function Flatten<T>(ss: seq<seq<T>>): (r: seq<T>)
    ensures |ss| == 1 ==> r == ss[0]
  {
    if ss == [] then [] else ss[0] + Flatten(ss[1..])
  }

  /** An element of the concatenation comes from one of the parts. */
  lemma {:induction false} FlattenMembers<T>(ss: seq<seq<T>>, x: T)
    ensures x in Flatten(ss) <==> exists i :: 0 <= i < |ss| && x in ss[i]
  {
    if ss != [] {
      FlattenMembers(ss[1..], x);
      if x in Flatten(ss[1..]) {
        var i :| 0 <= i < |ss[1..]| && x in ss[1..][i];
        assert x in ss[i + 1];
      }
      if exists i :: 0 <= i < |ss| && x in ss[i] {
        var i :| 0 <= i < |ss| && x in ss[i];
        if i > 0 {
          assert x in ss[1..][i - 1];
        }
      }
    }
  }
}

=== FILE: sorting.dfy ===
/** A stable insertion sort by a total preorder, standing in for `Array.prototype.sort` with a
    comparator (which is stable). */
module Sorting {
  import opened Seqs

  /** `le` is total and transitive: a comparator that sorting can rely on. */
  ghost predicate TotalPreorder<T(!new)>(le: (T, T) -> bool) {
    && (forall a, b :: le(a, b) || le(b, a))
    && (forall a, b, c :: le(a, b) && le(b, c) ==> le(a, c))
  }

  predicate Sorted<T>(le: (T, T) -> bool, s: seq<T>) {
    forall i, j :: 0 <= i < j < |s| ==> le(s[i], s[j])
  }

  /** Puts `x` in front of the first element it does not come after, so that elements the
      preorder ties keep their relative order. */
  function Insert<T(!new)>(le: (T, T) -> bool, x: T, s: seq<T>): (r: seq<T>)
    requires TotalPreorder(le) && Sorted(le, s)
    ensures Sorted(le, r)
    ensures multiset(r) == multiset(s) + multiset{x}
  {
    if s == [] then [x]
    else if le(x, s[0]) then [x] + s
    else
      var t := Insert(le, x, s[1..]);
      assert s == [s[0]] + s[1..];
      assert forall k :: 0 <= k < |t| ==> le(s[0], t[k]) by {
        forall k | 0 <= k < |t| ensures le(s[0], t[k]) {
          assert t[k] in multiset(t);
          if t[k] != x {
            assert t[k] in multiset(s[1..]);
            var m :| 0 <= m < |s[1..]| && s[1..][m] == t[k];
            assert s[m + 1] == t[k];
          }
        }
      }
      [s[0]] + t
  }

  function Sort<T(!new)>(le: (T, T) -> bool, s: seq<T>): (r: seq<T>)
    requires TotalPreorder(le)
    ensures Sorted(le, r)
    ensures multiset(r) == multiset(s)
  {
    if s == [] then []
    else
      assert s == [s[0]] + s[1..];
      Insert(le, s[0], Sort(le, s[1..]))
  }

  /** For an antisymmetric order there is only one sorted arrangement of a multiset. */
  lemma {:induction false} SortedUnique<T(!new)>(le: (T, T) -> bool, a: seq<T>, b: seq<T>)
    requires TotalPreorder(le)
    requires forall x, y :: le(x, y) && le(y, x) ==> x == y
    requires Sorted(le, a) && Sorted(le, b)
    requires multiset(a) == multiset(b)
    ensures a == b
  {
    if a != [] {
      SortedSameHead(le, a, b);
      TailMultiset(a, b);
      SortedUnique(le, a[1..], b[1..]);
    } else {
      assert |b| == |multiset(b)| == 0;
    }
  }

  lemma SortedSameHead<T(!new)>(le: (T, T) -> bool, a: seq<T>, b: seq<T>)
    requires forall x, y :: le(x, y) && le(y, x) ==> x == y
    requires Sorted(le, a) && Sorted(le, b)
    requires multiset(a) == multiset(b) && a != []
    ensures b != [] && a[0] == b[0]
  {
    assert a[0] in multiset(b) && b[0] in multiset(a);
    var k :| 0 <= k < |b| && b[k] == a[0];
    var m :| 0 <= m < |a| && a[m] == b[0];
    assert le(a[0], a[m]) || m == 0;
    assert le(b[0], b[k]) || k == 0;
  }

  lemma TailMultiset<T>(a: seq<T>, b: seq<T>)
    requires a != [] && b != [] && a[0] == b[0] && multiset(a) == multiset(b)
    ensures multiset(a[1..]) == multiset(b[1..])
  {
    assert a == [a[0]] + a[1..] && b == [b[0]] + b[1..];
    assert multiset(a[1..]) == multiset(a) - multiset{a[0]};
    assert multiset(b[1..]) == multiset(b) - multiset{a[0]};
  }

  /** A duplicate-free sequence, sorted by an order that ties no two of its elements, is
      determined by its elements. */
  lemma {:induction false} SortedSetUnique<T(!new)>(le: (T, T) -> bool, a: seq<T>, b: seq<T>)
    requires forall x, y :: x in a && y in a && le(x, y) && le(y, x) ==> x == y
    requires Sorted(le, a) && Sorted(le, b) && NoDup(a) && NoDup(b)
    requires forall x :: x in a <==> x in b
    ensures a == b
    decreases |a|
  {
    if a == [] {
      if b != [] {
        HeadIn(b);
        assert false;
      }
    } else {
      assert a[0] in a;
      HeadIsLeast(le, a, b[0]);
      HeadIsLeast(le, b, a[0]);
      assert a[0] == b[0];
      forall x ensures x in a[1..] <==> x in b[1..] {
        TailMembers(a, x);
        TailMembers(b, x);
      }
      SortedTail(le, a);
      SortedTail(le, b);
      SortedSetUnique(le, a[1..], b[1..]);
      assert a == [a[0]] + a[1..] && b == [b[0]] + b[1..];
    }
  }

  lemma HeadIn<T>(s: seq<T>)
    ensures s != [] ==> s[0] in s
  {
  }

  lemma HeadIsLeast<T>(le: (T, T) -> bool, s: seq<T>, x: T)
    requires Sorted(le, s) && x in s
    ensures le(s[0], x) || s[0] == x
  {
    var i :| 0 <= i < |s| && s[i] == x;
    if i > 0 {
      assert le(s[0], s[i]);
    }
  }

  lemma SortedTail<T>(le: (T, T) -> bool, s: seq<T>)
    requires Sorted(le, s) && NoDup(s) && s != []
    ensures Sorted(le, s[1..]) && NoDup(s[1..])
  {
    forall i, j | 0 <= i < j < |s[1..]| ensures le(s[1..][i], s[1..][j]) {
      assert s[1..][i] == s[i + 1] && s[1..][j] == s[j + 1];
    }
    forall i, j | 0 <= i < j < |s[1..]| ensures s[1..][i] != s[1..][j] {
      assert s[1..][i] == s[i + 1] && s[1..][j] == s[j + 1];
    }
  }

  lemma TailMembers<T>(a: seq<T>, x: T)
    requires NoDup(a) && a != []
    ensures x in a[1..] <==> x in a && x != a[0]
  {
    if x in a[1..] {
      var i :| 0 <= i < |a[1..]| && a[1..][i] == x;
      assert a[i + 1] == x;
    }
    if x in a && x != a[0] {
      var i :| 0 <= i < |a| && a[i] == x;
      assert a[1..][i - 1] == x;
    }
  }
}

=== FILE: splitter.dfy ===
/** `splitMulti`: the tokens of the multi-valued decades field ("1980s, 1990s; 2000s"). */
module Splitter {
  import opened Wrappers
  import opened Text
  import opened Seqs

  /** The characters of the class `[,;/|]`. */
  predicate IsSeparator(c: char) {
    c == ',' || c == ';' || c == '/' || c == '|'
  }

  predicate NotSeparator(c: char) {
    !IsSeparator(c)
  }

  predicate NoSeparator(s: string) {
    forall i :: 0 <= i < |s| ==> !IsSeparator(s[i])
  }

  predicate AllSeparators(s: string) {
    forall i :: 0 <= i < |s| ==> IsSeparator(s[i])
  }

  /** Where the first separator of `s` is, or `|s|` when there is none. */
  function FirstSeparator(s: string): (k: nat)
    ensures k <= |s| && NoSeparator(s[..k])
    ensures k < |s| ==> IsSeparator(s[k])
  {
    if s == [] || IsSeparator(s[0]) then 0
    else
      var k := 1 + FirstSeparator(s[1..]);
      assert s[..k] == [s[0]] + s[1..][..k - 1];
      k
  }

  /** How many separators `s` starts with. */
  function SeparatorRun(s: string): (k: nat)
    ensures k <= |s| && AllSeparators(s[..k])
    ensures k < |s| ==> !IsSeparator(s[k])
  {
    if s != [] && IsSeparator(s[0]) then
      var k := 1 + SeparatorRun(s[1..]);
      assert s[..k] == [s[0]] + s[1..][..k - 1];
      k
    else 0
  }

  /** `s.split(/[,;/|]+/)`: the stretches of `s` between maximal runs of separators, including
      the empty stretch before a leading run or after a trailing one. */
  function SplitRuns(s: string): (r: seq<string>)
    ensures |r| >= 1
    ensures forall i :: 0 <= i < |r| ==> NoSeparator(r[i])
    decreases |s|
  {
    var k := FirstSeparator(s);
    if k == |s| then
      assert s[..k] == s;
      [s]
    else
      var j := k + SeparatorRun(s[k..]);
      [s[..k]] + SplitRuns(s[j..])
  }

  /** The pieces are exactly the non-separator characters of `s`, in order: splitting loses
      nothing but separators and reorders nothing. */
  lemma {:induction false} SplitRunsConcat(s: string)
    ensures Flatten(SplitRuns(s)) == Filter(NotSeparator, s)
    decreases |s|
  {
    var k := FirstSeparator(s);
    if k == |s| {
      assert s[..k] == s;
      FilterAll(NotSeparator, s);
    } else {
      var j := k + SeparatorRun(s[k..]);
      SplitRunsConcat(s[j..]);
      SplitRunsConcatStep(s, k, j);
    }
  }

  /** One step of `SplitRunsConcat`: the first piece, then the pieces after the first run. */
  lemma SplitRunsConcatStep(s: string, k: nat, j: nat)
    requires k == FirstSeparator(s) < |s| && j == k + SeparatorRun(s[k..])
    requires Flatten(SplitRuns(s[j..])) == Filter(NotSeparator, s[j..])
    ensures Flatten(SplitRuns(s)) == Filter(NotSeparator, s)
  {
    var ss := SplitRuns(s);
    assert ss == [s[..k]] + SplitRuns(s[j..]);
    assert ss[0] == s[..k] && ss[1..] == SplitRuns(s[j..]);
    assert Flatten(ss) == ss[0] + Flatten(ss[1..]);
    var run := SeparatorRun(s[k..]);
    assert AllSeparators(s[k..][..run]) && run == j - k;
    FilterOfSplit(s, k, j);
  }

  lemma FilterOfSplit(s: string, k: nat, j: nat)
    requires k <= j <= |s|
    requires NoSeparator(s[..k]) && AllSeparators(s[k..][..j - k])
    ensures Filter(NotSeparator, s) == s[..k] + Filter(NotSeparator, s[j..])
  {
    var a, b, c := s[..k], s[k..][..j - k], s[j..];
    assert s == a + (b + c);
    FilterAll(NotSeparator, a);
    NoneKept(b);
    FilterAppend(b, c);
    assert Filter(NotSeparator, b + c) == Filter(NotSeparator, c);
    FilterAppend(a, b + c);
  }

  lemma {:induction false} NoneKept(s: string)
    requires AllSeparators(s)
    ensures Filter(NotSeparator, s) == []
  {
    if s != [] {
      NoneKept(s[1..]);
    }
  }

  lemma {:induction false} FilterAppend(a: string, b: string)
    ensures Filter(NotSeparator, a + b) == Filter(NotSeparator, a) + Filter(NotSeparator, b)
  {
    if a != [] {
      assert (a + b)[1..] == a[1..] + b;
      FilterAppend(a[1..], b);
    } else {
      assert a + b == b;
    }
  }

  /** Inner pieces are never empty, because a run of separators is consumed whole. */
  lemma {:induction false} SplitRunsInnerNonEmpty(s: string)
    ensures forall i :: 0 < i < |SplitRuns(s)| - 1 ==> SplitRuns(s)[i] != []
    decreases |s|
  {
    var k := FirstSeparator(s);
    if k < |s| {
      var j := k + SeparatorRun(s[k..]);
      var rest := s[j..];
      var tail := SplitRuns(rest);
      assert SplitRuns(s) == [s[..k]] + tail;
      SplitRunsInnerNonEmpty(rest);
      if 1 < |tail| {
        HeadOfLongSplit(rest);
      }
    }
  }

  lemma HeadOfLongSplit(rest: string)
    requires 1 < |SplitRuns(rest)|
    requires rest == [] || !IsSeparator(rest[0])
    ensures SplitRuns(rest)[0] != []
  {
    var k := FirstSeparator(rest);
    assert k < |rest|;
    assert k > 0;
  }

  /** Peeling one separator-free piece and the separator run after it off the front. */
  lemma SplitRunsStep(piece: string, run: string, rest: string)
    requires NoSeparator(piece) && run != [] && AllSeparators(run)
    requires rest == [] || !IsSeparator(rest[0])
    ensures SplitRuns(piece + run + rest) == [piece] + SplitRuns(rest)
  {
    var s := piece + run + rest;
    FirstSeparatorOf(piece, run + rest);
    assert s == piece + (run + rest);
    assert s[|piece|..] == run + rest;
    SeparatorRunOf(run, rest);
    assert s[..|piece|] == piece;
    assert s[|piece| + |run|..] == rest;
  }

  lemma {:induction false} FirstSeparatorOf(piece: string, rest: string)
    requires NoSeparator(piece) && rest != [] && IsSeparator(rest[0])
    ensures FirstSeparator(piece + rest) == |piece|
  {
    if piece != [] {
      assert (piece + rest)[1..] == piece[1..] + rest;
      FirstSeparatorOf(piece[1..], rest);
    }
  }

  lemma {:induction false} SeparatorRunOf(run: string, rest: string)
    requires AllSeparators(run)
    requires rest == [] || !IsSeparator(rest[0])
    ensures SeparatorRun(run + rest) == |run|
  {
    if run != [] {
      assert (run + rest)[1..] == run[1..] + rest;
      SeparatorRunOf(run[1..], rest);
    } else {
      assert run + rest == rest;
    }
  }

  /** The last piece, when nothing separates it. */
  lemma SplitRunsLast(s: string)
    requires NoSeparator(s)
    ensures SplitRuns(s) == [s]
  {
  }

  function TrimAll(pieces: seq<string>): (r: seq<string>)
    ensures |r| == |pieces|
    ensures forall i :: 0 <= i < |r| ==> r[i] == Trim(pieces[i])
  {
    seq(|pieces|, i requires 0 <= i < |pieces| => Trim(pieces[i]))
  }

  lemma TrimKeepsNoSeparator(p: string)
    requires NoSeparator(p)
    ensures NoSeparator(Trim(p))
  {
    var pre, post := TrimParts(p);
    assert forall i :: 0 <= i < |Trim(p)| ==> Trim(p)[i] == p[|pre| + i];
  }

  predicate NonEmpty(s: string) {
    s != []
  }

  /** `splitMulti(value)`: the trimmed, non-empty pieces of the trimmed field, in the order they
      appear; a blank or missing field has no tokens. */
  function SplitMulti(value: Option<string>): (r: seq<string>)
    ensures NormalizeToken(value) == [] ==> r == []
    ensures forall i :: 0 <= i < |r| ==> r[i] != [] && Trimmed(r[i]) && NoSeparator(r[i])
  {
    var s := NormalizeToken(value);
    if s == [] then []
    else
      var pieces := SplitRuns(s);
      var tokens := Filter(NonEmpty, TrimAll(pieces));
      assert forall i :: 0 <= i < |tokens| ==> tokens[i] != [] && Trimmed(tokens[i]) && NoSeparator(tokens[i]) by {
        forall i | 0 <= i < |tokens| ensures tokens[i] != [] && Trimmed(tokens[i]) && NoSeparator(tokens[i]) {
          assert NonEmpty(tokens[i]);
          FilterMembers(NonEmpty, TrimAll(pieces), tokens[i]);
          var k :| 0 <= k < |pieces| && TrimAll(pieces)[k] == tokens[i];
          TrimKeepsNoSeparator(pieces[k]);
        }
      }
      tokens
  }

  lemma SplitMultiPieces(value: Option<string>)
    requires NormalizeToken(value) != []
    ensures SplitMulti(value) == Filter(NonEmpty, TrimAll(SplitRuns(NormalizeToken(value))))
  {
  }

  /** The tokens appear in the order of the pieces they come from. */
  lemma SplitMultiInOrder(value: Option<string>)
    requires NormalizeToken(value) != []
    ensures IsSubseq(SplitMulti(value), TrimAll(SplitRuns(NormalizeToken(value))))
  {
    FilterIsSubseq(NonEmpty, TrimAll(SplitRuns(NormalizeToken(value))));
  }

  /** A string is a token of a field exactly when it is a non-empty trimmed piece of it. */
  lemma SplitMultiMembers(value: Option<string>, t: string)
    requires NormalizeToken(value) != []
    ensures t in SplitMulti(value) <==> t != [] && t in TrimAll(SplitRuns(NormalizeToken(value)))
  {
    FilterMembers(NonEmpty, TrimAll(SplitRuns(NormalizeToken(value))), t);
  }

  /** Nothing but white space and separators. */
  predicate Blank(s: string) {
    forall i :: 0 <= i < |s| ==> IsSpace(s[i]) || IsSeparator(s[i])
  }

  /** A field has no tokens exactly when it is missing or holds nothing but white space and
      separators. */
  lemma SplitMultiEmpty(value: Option<string>)
    ensures SplitMulti(value) == [] <==> Blank(value.GetOr(""))
  {
    var v := value.GetOr("");
    var s := NormalizeToken(value);
    TrimEmpty(v);
    if s != [] {
      if Blank(v) {
        BlankHasNoTokens(v);
      } else {
        var i :| 0 <= i < |v| && !IsSpace(v[i]) && !IsSeparator(v[i]);
        InkMakesToken(v, v[i]);
      }
    }
  }

  lemma BlankHasNoTokens(v: string)
    requires Blank(v) && Trim(v) != []
    ensures SplitMulti(Some(v)) == []
  {
    var s := Trim(v);
    var pieces := SplitRuns(s);
    var trimmed := TrimAll(pieces);
    SplitRunsConcat(s);
    forall k | 0 <= k < |pieces| ensures trimmed[k] == [] {
      forall j | 0 <= j < |pieces[k]| ensures IsSpace(pieces[k][j]) {
        var c := pieces[k][j];
        FlattenMembers(pieces, c);
        FilterMembers(NotSeparator, s, c);
        if !IsSpace(c) {
          TrimKeeps(v, c);
        }
      }
      TrimEmpty(pieces[k]);
    }
    var tokens := Filter(NonEmpty, trimmed);
    if tokens != [] {
      FilterMembers(NonEmpty, trimmed, tokens[0]);
    }
  }

  lemma InkMakesToken(v: string, c: char)
    requires c in v && !IsSpace(c) && !IsSeparator(c)
    ensures SplitMulti(Some(v)) != []
  {
    TrimKeeps(v, c);
    var s := Trim(v);
    var pieces := SplitRuns(s);
    SplitRunsConcat(s);
    FilterMembers(NotSeparator, s, c);
    FlattenMembers(pieces, c);
    var k :| 0 <= k < |pieces| && c in pieces[k];
    TrimKeeps(pieces[k], c);
    var trimmed := TrimAll(pieces);
    FilterMembers(NonEmpty, trimmed, trimmed[k]);
  }
}

=== FILE: store.dfy ===
/** `MyCitiesStoreService`: the store's state, the single-flight loader (`ensureLoaded`,
    `refresh` and the two ways the fetch can complete) and the filter setters. The reactive
    streams are replaced by one immutable state record and pure transitions on it. */
module Store {
  import opened Wrappers
  import opened Seqs
  import opened Sorting
  import opened Cities
  import opened FilterLists
  import opened Filters

  /** The message `catchError` publishes. */
  const LoadError := "Failed to load cities"

  /** The current value of every subject the store owns, plus two things the source keeps
      implicitly: `loadOnce`, which of the fetches `_loadOnce$` stands for (fetches are numbered
      from 0 in the order they are issued), and `fetches`, how many times the store has called
      `getAllCities`. */
  datatype Store = Store(
    cities: seq<City>,
    loading: bool,
    error: Option<string>,
    stays: seq<string>,
    decades: seq<string>,
    stayFilter: Option<string>,
    decadeFilter: Option<string>,
    basemap: string,
    loadOnce: Option<nat>,
    fetches: nat)

  /** What `ensureLoaded` hands back: the cities already in memory (`of(existing)`), or the
      shared observable of fetch number `handle`. */
  datatype Reply = Cached(cities: seq<City>) | Shared(handle: nat)

  /** The store as constructed. */
  const Initial := Store([], false, None, [], [], None, None, "standard", None, 0)

  /** `ensureLoaded()`: the cached cities when there are any; otherwise the fetch already kept in
      `_loadOnce$`; otherwise a new fetch, with loading raised and the error cleared. */
  function EnsureLoaded(st: Store): (r: (Store, Reply))
    ensures r.1.Cached? <==> st.cities != []
    ensures r.1.Cached? ==> r.1.cities == st.cities && r.0 == st
    ensures r.1.Shared? ==> r.0.loadOnce == Some(r.1.handle)
    ensures st.cities != [] || st.loadOnce.Some? ==> r.0 == st
    ensures st.cities == [] && st.loadOnce.Some? ==> r.1 == Shared(st.loadOnce.value)
    ensures st.cities == [] && st.loadOnce.None? ==> r.1 == Shared(st.fetches)
    ensures r.0.fetches == if st.cities == [] && st.loadOnce.None? then st.fetches + 1 else st.fetches
    ensures r.0.fetches != st.fetches ==> r.0.loading && r.0.error.None?
    ensures r.0.(loading := st.loading, error := st.error, loadOnce := st.loadOnce, fetches := st.fetches) == st
  {
    if st.cities != [] then (st, Cached(st.cities))
    else if st.loadOnce.Some? then (st, Shared(st.loadOnce.value))
    else
      var handle := st.fetches;
      (st.(loading := true, error := None, loadOnce := Some(handle), fetches := handle + 1), Shared(handle))
  }

  /** The fetch delivers `raw` (`tap`, then `finalize`): the valid records replace the cached
      ones, the option lists are rebuilt from them and loading ends. `_loadOnce$` stays set, so
      later calls share the completed fetch. */
  function OnSuccess(st: Store, raw: seq<City>): (r: Store)
    ensures r.cities == ValidCities(raw)
    ensures Lists(r.stays, r.decades) == BuildFilterLists(ValidCities(raw))
    ensures !r.loading
    ensures r.(cities := st.cities, stays := st.stays, decades := st.decades, loading := st.loading) == st
  {
    var valid := ValidCities(raw);
    var lists := BuildFilterLists(valid);
    st.(cities := valid, stays := lists.stays, decades := lists.decades, loading := false)
  }

  /** The fetch fails (`catchError`, then `finalize`): the error is published, `_loadOnce$` is
      cleared so that a later call fetches again, and loading ends. */
  function OnFailure(st: Store): (r: Store)
    ensures r.error == Some(LoadError) && r.loadOnce.None? && !r.loading
    ensures r.(error := st.error, loadOnce := st.loadOnce, loading := st.loading) == st
  {
    st.(error := Some(LoadError), loadOnce := None, loading := false)
  }

  /** `refresh()`: forget the cities, both option lists and `_loadOnce$`, then `ensureLoaded()`. */
  function Refresh(st: Store): (r: (Store, Reply))
    ensures r.1 == Shared(st.fetches) && r.0.fetches == st.fetches + 1
    ensures r.0.cities == [] && r.0.stays == [] && r.0.decades == []
    ensures r.0.loadOnce == Some(st.fetches) && r.0.loading && r.0.error.None?
    ensures r.0.stayFilter == st.stayFilter && r.0.decadeFilter == st.decadeFilter
    ensures r.0.basemap == st.basemap
  {
    EnsureLoaded(st.(cities := [], stays := [], decades := [], loadOnce := None))
  }

  function SetStayDurationFilter(st: Store, value: Option<string>): (r: Store)
    ensures r.stayFilter == NormalizeFilter(value)
    ensures r.(stayFilter := st.stayFilter) == st
  {
    st.(stayFilter := NormalizeFilter(value))
  }

  function SetDecadeFilter(st: Store, value: Option<string>): (r: Store)
    ensures r.decadeFilter == NormalizeFilter(value)
    ensures r.(decadeFilter := st.decadeFilter) == st
  {
    st.(decadeFilter := NormalizeFilter(value))
  }

  /** `clearFilters()`: both selections become "no filter" and nothing else changes. */
  function ClearFilters(st: Store): (r: Store)
    ensures r.stayFilter.None? && r.decadeFilter.None?
    ensures r.(stayFilter := st.stayFilter, decadeFilter := st.decadeFilter) == st
  {
    st.(stayFilter := None, decadeFilter := None)
  }

  function SetBasemapMode(st: Store, mode: string): (r: Store)
    ensures r.basemap == mode
    ensures r.(basemap := st.basemap) == st
  {
    st.(basemap := mode)
  }

  /** The current value of `filteredCities$`. */
  function FilteredView(st: Store): (r: seq<City>)
    ensures IsSubseq(r, st.cities)
  {
    FilteredInOrder(st.cities, st.stayFilter, st.decadeFilter);
    FilteredCities(Some(st.cities), st.stayFilter, st.decadeFilter)
  }

  /** What holds of every store the transitions can reach: stored selections are normalised,
      every cached record has valid coordinates, the option lists are the ones built from the
      cached records, the kept fetch is one already issued, and the only error is the load error. */
  ghost predicate Inv(st: Store) {
    && NormalizeFilter(st.stayFilter) == st.stayFilter
    && NormalizeFilter(st.decadeFilter) == st.decadeFilter
    && (forall i :: 0 <= i < |st.cities| ==> HasValidCoordinates(st.cities[i]))
    && Lists(st.stays, st.decades) == BuildFilterLists(st.cities)
    && (st.loadOnce.Some? ==> st.loadOnce.value < st.fetches)
    && (st.error.Some? ==> st.error.value == LoadError)
  }

  /** The events the store reacts to. */
  datatype Event =
    | CallEnsureLoaded
    | Succeed(raw: seq<City>)
    | Fail
    | CallRefresh
    | SetStay(value: Option<string>)
    | SetDecade(value: Option<string>)
    | Clear
    | SetBasemap(mode: string)

  function Step(st: Store, e: Event): Store {
    match e
    case CallEnsureLoaded => EnsureLoaded(st).0
    case Succeed(raw) => OnSuccess(st, raw)
    case Fail => OnFailure(st)
    case CallRefresh => Refresh(st).0
    case SetStay(v) => SetStayDurationFilter(st, v)
    case SetDecade(v) => SetDecadeFilter(st, v)
    case Clear => ClearFilters(st)
    case SetBasemap(m) => SetBasemapMode(st, m)
  }

  function Run(st: Store, events: seq<Event>): Store
    decreases |events|
  {
    if events == [] then st else Run(Step(st, events[0]), events[1..])
  }

  lemma NoListsOfNoCities()
    ensures BuildFilterLists([]) == Lists([], [])
  {
    var r := BuildFilterLists([]);
    assert multiset(r.stays) == multiset{} && multiset(r.decades) == multiset{};
  }

  lemma InitialInv()
    ensures Inv(Initial)
  {
    NoListsOfNoCities();
  }

  /** Every transition keeps the invariant. */
  lemma StepInv(st: Store, e: Event)
    requires Inv(st)
    ensures Inv(Step(st, e))
  {
    match e
    case Succeed(raw) =>
    case CallRefresh => NoListsOfNoCities();
    case SetStay(v) => NormalizeFilterIdempotent(v);
    case SetDecade(v) => NormalizeFilterIdempotent(v);
    case _ =>
  }

  /** Every store reachable from the initial one satisfies the invariant. */
  lemma {:induction false} RunInv(st: Store, events: seq<Event>)
    requires Inv(st)
    ensures Inv(Run(st, events))
    decreases |events|
  {
    if events != [] {
      StepInv(st, events[0]);
      RunInv(Step(st, events[0]), events[1..]);
    }
  }

  /** `ensureLoaded()` called `n` times in a row, with no completion in between: the replies. */
  function CallsInARow(st: Store, n: nat): (r: (Store, seq<Reply>))
    ensures |r.1| == n
    decreases n
  {
    if n == 0 then (st, [])
    else
      var first := EnsureLoaded(st);
      var rest := CallsInARow(first.0, n - 1);
      (rest.0, [first.1] + rest.1)
  }

  /** Single flight: however many times `ensureLoaded()` is called before the fetch completes,
      every caller gets the same reply and at most one fetch is issued. */
  lemma {:induction false} SingleFlight(st: Store, n: nat)
    requires n > 0
    ensures var r := CallsInARow(st, n);
      && (forall i :: 0 <= i < n ==> r.1[i] == EnsureLoaded(st).1)
      && r.0 == EnsureLoaded(st).0
      && r.0.fetches <= st.fetches + 1
    decreases n
  {
    if n > 1 {
      var first := EnsureLoaded(st);
      SingleFlight(first.0, n - 1);
      assert EnsureLoaded(first.0) == first;
    }
  }

  /** A failed load is retried: the next call issues a new fetch. */
  lemma RetryAfterFailure(st: Store)
    requires st.cities == []
    ensures var r := EnsureLoaded(OnFailure(st));
      r.0.fetches == st.fetches + 1 && r.1 == Shared(st.fetches) && r.0.error.None?
  {
  }

  /** After a load that kept at least one record, calls are answered from memory with no fetch. */
  lemma CachedAfterSuccess(st: Store, raw: seq<City>)
    requires ValidCities(raw) != []
    ensures var r := EnsureLoaded(OnSuccess(st, raw));
      r.1 == Cached(ValidCities(raw)) && r.0.fetches == st.fetches
  {
  }

  /** After a load that kept no record, `_loadOnce$` still holds the completed fetch: calls share
      it and no new fetch is issued, until `refresh()`. */
  lemma EmptyLoadIsKept(st: Store, raw: seq<City>)
    requires st.loadOnce.Some? && ValidCities(raw) == []
    ensures var r := EnsureLoaded(OnSuccess(st, raw));
      r.1 == Shared(st.loadOnce.value) && r.0.fetches == st.fetches
  {
  }

  /** A load whose records all have usable coordinates keeps every one of them, in order, and
      the option lists are built from all of them. */
  lemma AllValidKept(st: Store, raw: seq<City>)
    requires forall i :: 0 <= i < |raw| ==> HasValidCoordinates(raw[i])
    ensures OnSuccess(st, raw).cities == raw
    ensures Lists(OnSuccess(st, raw).stays, OnSuccess(st, raw).decades) == BuildFilterLists(raw)
  {
    FilterAll(HasValidCoordinates, raw);
  }

  /** What a subscriber to an `ensureLoaded()` reply receives once the fetch has delivered `raw`.
      A cached reply delivers the records in memory. The shared fetch delivers what its `tap`
      passes on, and a `tap` passes on the array as received, records with invalid coordinates
      included. */
  function Received(reply: Reply, raw: seq<City>): seq<City> {
    match reply
    case Cached(cities) => cities
    case Shared(_) => raw
  }

  /** As written, the first callers of a load receive every record the fetch delivered, invalid
      ones too. A caller after a load that kept some record is answered from memory with the
      valid records only, so the two differ whenever a record is invalid. */
  lemma FirstLoadUnfiltered(st: Store, raw: seq<City>, i: int)
    requires st.cities == []
    requires 0 <= i < |raw| && !HasValidCoordinates(raw[i])
    ensures var first := EnsureLoaded(st);
      var later := EnsureLoaded(OnSuccess(first.0, raw));
      && Received(first.1, raw) == raw
      && raw[i] in Received(first.1, raw)
      && (ValidCities(raw) != [] ==>
            Received(later.1, raw) == ValidCities(raw) && raw[i] !in Received(later.1, raw))
  {
    ValidCitiesExactly(raw, raw[i]);
  }

  /** What a subscriber is meant to receive: only the records with valid coordinates, the
      list the store keeps. */
  function ReceivedCorrected(reply: Reply, raw: seq<City>): seq<City> {
    match reply
    case Cached(cities) => cities
    case Shared(_) => ValidCities(raw)
  }

  /** With the intended delivery every caller of a load receives the same list, the records the
      store keeps, whether the caller came before the fetch completed or after it. */
  lemma FirstLoadFiltered(st: Store, raw: seq<City>)
    requires st.cities == []
    ensures var first := EnsureLoaded(st);
      var later := EnsureLoaded(OnSuccess(first.0, raw));
      && ReceivedCorrected(first.1, raw) == OnSuccess(first.0, raw).cities
      && ReceivedCorrected(later.1, raw) == OnSuccess(first.0, raw).cities
      && (forall c :: c in ReceivedCorrected(first.1, raw) <==> c in raw && HasValidCoordinates(c))
  {
    forall c {
      ValidCitiesExactly(raw, c);
    }
  }

  /** In every reachable store the view holds only records with valid coordinates. */
  lemma ViewIsValid(st: Store, c: City)
    requires Inv(st)
    requires c in FilteredView(st)
    ensures HasValidCoordinates(c)
  {
    FilteredExactly(st.cities, st.stayFilter, st.decadeFilter, c);
  }
}

=== FILE: text.dfy ===
/** String helpers with the meaning JavaScript gives them: `trim`, the `\s` class, ASCII digits
    and `toLowerCase` on the letters the store's patterns look at. */
module Text {
  import opened Wrappers

  /** The white space beyond ASCII: NBSP, the Zs category, LS, PS and ZWNBSP. */
  const WideSpaces: seq<char> := [
    '\U{00A0}', '\U{1680}', '\U{2000}', '\U{2001}', '\U{2002}', '\U{2003}', '\U{2004}',
    '\U{2005}', '\U{2006}', '\U{2007}', '\U{2008}', '\U{2009}', '\U{200A}',
    '\U{2028}', '\U{2029}', '\U{202F}', '\U{205F}', '\U{3000}', '\U{FEFF}']

  /** Membership in a list of characters, one at a time. */
  predicate Listed(c: char, cs: seq<char>) {
    cs != [] && (c == cs[0] || Listed(c, cs[1..]))
  }

  /** JavaScript white space, as removed by `String.prototype.trim` and matched by `\s`: the
      WhiteSpace characters (TAB, VT, FF, SP, NBSP, ZWNBSP and the Zs category) and the
      LineTerminator characters (LF, CR, LS, PS). */
  predicate IsSpace(c: char) {
    c == ' ' || ('\t' <= c <= '\r') || ('\U{00A0}' <= c && Listed(c, WideSpaces))
  }

  predicate AllSpace(s: string) {
    forall i :: 0 <= i < |s| ==> IsSpace(s[i])
  }

  /** Neither end of `s` is white space. */
  predicate Trimmed(s: string) {
    s == [] || (!IsSpace(s[0]) && !IsSpace(s[|s| - 1]))
  }

  predicate StartsWith(s: string, prefix: string) {
    |prefix| <= |s| && s[..|prefix|] == prefix
  }

  /** How many white-space characters `s` starts with. */
  function LeadingSpaces(s: string): (k: nat)
    ensures k <= |s|
    ensures forall i :: 0 <= i < k ==> IsSpace(s[i])
    ensures k < |s| ==> !IsSpace(s[k])
  {
    if |s| > 0 && IsSpace(s[0]) then 1 + LeadingSpaces(s[1..]) else 0
  }

  /** How many white-space characters `s` ends with. */
  function TrailingSpaces(s: string): (k: nat)
    ensures k <= |s|
    ensures forall i :: |s| - k <= i < |s| ==> IsSpace(s[i])
    ensures k < |s| ==> !IsSpace(s[|s| - k - 1])
  {
    if |s| > 0 && IsSpace(s[|s| - 1]) then 1 + TrailingSpaces(s[..|s| - 1]) else 0
  }

  /** `s` without its leading white space; also what `\s*` consumes at the front of `s`. */
  function TrimStart(s: string): (r: string)
    ensures r == [] || !IsSpace(r[0])
    ensures |r| <= |s|
  {
    var k := LeadingSpaces(s);
    assert s == s[..k] + s[k..];
    s[k..]
  }

  /** White space in front of a string that does not start with white space is what
      `TrimStart` removes. */
  lemma TrimStartOf(sp: string, x: string)
    requires AllSpace(sp) && (x == [] || !IsSpace(x[0]))
    ensures TrimStart(sp + x) == x
  {
    LeadingSpacesOf(sp, x);
    assert (sp + x)[|sp|..] == x;
  }

  /** `s` is the white space `TrimStart` skips followed by what it returns. */
  lemma TrimStartSplit(s: string) returns (sp: string)
    ensures AllSpace(sp) && s == sp + TrimStart(s)
  {
    var k := LeadingSpaces(s);
    sp := s[..k];
    assert s == s[..k] + s[k..];
  }

  lemma TrimStartUnchanged(x: string)
    requires x == [] || !IsSpace(x[0])
    ensures TrimStart(x) == x
  {
  }

  /** `String.prototype.trim`: `s` with white space cut from both ends. */
  function Trim(s: string): (r: string)
    ensures Trimmed(r) && |r| <= |s|
    ensures Trimmed(s) ==> r == s
  {
    var a := LeadingSpaces(s);
    if a == |s| then
      []
    else
      var b := |s| - TrailingSpaces(s);
      assert a < b;
      assert Trimmed(s) ==> a == 0 && b == |s| && s[a..b] == s;
      s[a..b]
  }

  /** What `Trim` removes is white space on both sides of its result. */
  lemma TrimCuts(s: string)
    ensures exists pre, post :: s == pre + Trim(s) + post && AllSpace(pre) && AllSpace(post)
  {
    var pre, post := TrimParts(s);
  }

  lemma TrimParts(s: string) returns (pre: string, post: string)
    ensures s == pre + Trim(s) + post && AllSpace(pre) && AllSpace(post)
  {
    var a := LeadingSpaces(s);
    if a == |s| {
      pre, post := s, [];
      assert s == pre + [] + post;
    } else {
      var b := |s| - TrailingSpaces(s);
      pre, post := s[..a], s[b..];
      assert Trim(s) == s[a..b];
      assert AllSpace(pre) by {
        forall i | 0 <= i < |pre| ensures IsSpace(pre[i]) { assert pre[i] == s[i]; }
      }
      assert AllSpace(post) by {
        forall i | 0 <= i < |post| ensures IsSpace(post[i]) { assert post[i] == s[b + i]; }
      }
      ThreeSlices(s, a, b);
    }
  }

  lemma ThreeSlices(s: string, a: nat, b: nat)
    requires a <= b <= |s|
    ensures s == s[..a] + s[a..b] + s[b..]
  {
    assert s[..b] == s[..a] + s[a..b];
  }

  /** Trimming keeps every character that is not white space. */
  lemma TrimKeeps(s: string, c: char)
    requires !IsSpace(c)
    ensures c in Trim(s) <==> c in s
  {
    var pre, post := TrimParts(s);
    assert c !in pre && c !in post;
    assert c in s <==> c in pre || c in Trim(s) || c in post;
  }

  /** `String(value ?? '').trim()`: a missing value reads as the empty string. */
  function NormalizeToken(value: Option<string>): (r: string)
    ensures Trimmed(r)
    ensures value == None ==> r == []
  {
    Trim(value.GetOr(""))
  }

  lemma {:induction false} LeadingSpacesOf(pre: string, x: string)
    requires AllSpace(pre)
    requires x == [] || !IsSpace(x[0])
    ensures LeadingSpaces(pre + x) == |pre|
  {
    if pre != [] {
      assert (pre + x)[1..] == pre[1..] + x;
      LeadingSpacesOf(pre[1..], x);
    }
  }

  lemma {:induction false} TrailingSpacesOf(x: string, post: string)
    requires AllSpace(post)
    requires x == [] || !IsSpace(x[|x| - 1])
    ensures TrailingSpaces(x + post) == |post|
  {
    if post != [] {
      var p := post[..|post| - 1];
      assert (x + post)[..|x + post| - 1] == x + p;
      TrailingSpacesOf(x, p);
    } else {
      assert x + post == x;
    }
  }

  lemma AllSpaceAppend(a: string, b: string)
    requires AllSpace(a) && AllSpace(b)
    ensures AllSpace(a + b)
  {
    forall i | 0 <= i < |a + b| ensures IsSpace((a + b)[i]) {
      if i < |a| { assert (a + b)[i] == a[i]; } else { assert (a + b)[i] == b[i - |a|]; }
    }
  }

  lemma Regroup3(a: string, b: string, c: string, x: string, r: string, y: string)
    requires b == x + r + y
    ensures a + b + c == (a + x) + r + (y + c)
  {
  }

  /** White space added around `s` is removed again by `Trim`. */
  lemma TrimPadded(pre: string, s: string, post: string)
    requires AllSpace(pre) && AllSpace(post)
    ensures Trim(pre + s + post) == Trim(s)
  {
    var pre', post' := TrimParts(s);
    Regroup3(pre, s, post, pre', Trim(s), post');
    AllSpaceAppend(pre, pre');
    AllSpaceAppend(post', post);
    TrimUnique(pre + s + post, pre + pre', Trim(s), post' + post);
  }

  /** `Trim` is the only way to cut white space from both ends of `s` and be left with a
      string whose ends are not white space. */
  lemma TrimUnique(s: string, pre: string, r: string, post: string)
    requires s == pre + r + post && AllSpace(pre) && AllSpace(post) && Trimmed(r)
    ensures Trim(s) == r
  {
    if r == [] {
      assert s == pre + post;
      AllSpaceAppend(pre, post);
      LeadingSpacesOf(s, []);
      assert s + [] == s;
    } else {
      assert s == pre + (r + post);
      LeadingSpacesOf(pre, r + post);
      assert s == (pre + r) + post;
      TrailingSpacesOf(pre + r, post);
      assert s[|pre|..|s| - |post|] == r;
    }
  }

  /** A string trims to nothing exactly when it is all white space. */
  lemma TrimEmpty(s: string)
    ensures Trim(s) == [] <==> AllSpace(s)
  {
    if AllSpace(s) {
      assert s == s + [] + [];
      TrimUnique(s, s, [], []);
    } else {
      var pre, post := TrimParts(s);
      AllSpaceAppend(pre, post);
    }
  }

  /** Trimming twice is trimming once. */
  lemma TrimIdempotent(s: string)
    ensures Trim(Trim(s)) == Trim(s)
  {
  }

  predicate IsDigit(c: char) {
    '0' <= c <= '9'
  }

  predicate AllDigits(s: string) {
    forall i :: 0 <= i < |s| ==> IsDigit(s[i])
  }

  function DigitValue(c: char): nat
    requires IsDigit(c)
  {
    c as int - '0' as int
  }

  function DigitChar(d: nat): (c: char)
    requires d < 10
    ensures IsDigit(c) && DigitValue(c) == d
  {
    ('0' as int + d) as char
  }

  /** The number a string of decimal digits denotes. */
  function DigitsValue(s: string): nat
    requires AllDigits(s)
  {
    if s == [] then 0 else DigitsValue(s[..|s| - 1]) * 10 + DigitValue(s[|s| - 1])
  }

  /** The decimal spelling of `n`, without leading zeros. */
  function Decimal(n: nat): (r: string)
    ensures r != [] && AllDigits(r)
  {
    if n < 10 then [DigitChar(n)] else Decimal(n / 10) + [DigitChar(n % 10)]
  }

  lemma {:induction false} DecimalValue(n: nat)
    ensures DigitsValue(Decimal(n)) == n
  {
    if n >= 10 {
      var d := Decimal(n);
      assert d[..|d| - 1] == Decimal(n / 10);
      DecimalValue(n / 10);
    }
  }

  /** The length of the run of ASCII digits (`\d`) at the front of `s`. */
  function DigitRun(s: string): (k: nat)
    ensures k <= |s| && AllDigits(s[..k])
    ensures k == |s| || !IsDigit(s[k])
  {
    if |s| > 0 && IsDigit(s[0]) then
      var k := 1 + DigitRun(s[1..]);
      assert s[..k] == [s[0]] + s[1..][..k - 1];
      k
    else
      0
  }

  lemma {:induction false} DigitRunOfDigits(d: string, rest: string)
    requires AllDigits(d)
    requires rest == [] || !IsDigit(rest[0])
    ensures DigitRun(d + rest) == |d|
  {
    if d != [] {
      assert (d + rest)[1..] == d[1..] + rest;
      DigitRunOfDigits(d[1..], rest);
    }
  }

  /** `(\d+)` at the front of `s`: the value of the longest run of digits and what follows it,
      or `None` when `s` does not start with a digit. Being greedy is exact here: every pattern
      that uses it continues with a character that is not a digit. */
  function Number(s: string): (r: Option<(nat, string)>)
    ensures r.None? <==> (s == [] || !IsDigit(s[0]))
    ensures r.Some? ==> |r.value.1| < |s|
    ensures r.Some? ==> r.value.1 == [] || !IsDigit(r.value.1[0])
  {
    var k := DigitRun(s);
    if k == 0 then None else Some((DigitsValue(s[..k]), s[k..]))
  }

  /** A number read off the front of `s` is the value of a run of digits that `s` starts with,
      and what is left is the rest of `s`. */
  lemma NumberSplit(s: string) returns (d: string)
    requires Number(s).Some?
    ensures d != [] && AllDigits(d) && DigitsValue(d) == Number(s).value.0
    ensures s == d + Number(s).value.1
  {
    var k := DigitRun(s);
    d := s[..k];
    assert s == s[..k] + s[k..];
  }

  /** Reading a run of digits, leading zeros included, gives the value of the run and leaves
      the rest untouched. */
  lemma NumberOfDigits(d: string, rest: string)
    requires d != [] && AllDigits(d)
    requires rest == [] || !IsDigit(rest[0])
    ensures Number(d + rest) == Some((DigitsValue(d), rest))
  {
    DigitRunOfDigits(d, rest);
    assert (d + rest)[..|d|] == d;
    assert (d + rest)[|d|..] == rest;
  }

  /** Reading back a printed number gives the number and leaves the rest untouched. */
  lemma NumberOfDecimal(n: nat, rest: string)
    requires rest == [] || !IsDigit(rest[0])
    ensures Number(Decimal(n) + rest) == Some((n, rest))
  {
    NumberOfDigits(Decimal(n), rest);
    DecimalValue(n);
  }

  /** ASCII `toLowerCase`. */
  function LowerChar(c: char): (r: char)
    ensures IsSpace(r) <==> IsSpace(c)
    ensures IsDigit(r) <==> IsDigit(c)
    ensures !('A' <= c <= 'Z') ==> r == c
  {
    if 'A' <= c <= 'Z' then
      (c as int - 'A' as int + 'a' as int) as char
    else c
  }

  function Lower(s: string): (r: string)
    ensures |r| == |s|
    ensures forall i :: 0 <= i < |s| ==> r[i] == LowerChar(s[i])
  {
    seq(|s|, i requires 0 <= i < |s| => LowerChar(s[i]))
  }

  lemma LowerAppend(a: string, b: string)
    ensures Lower(a + b) == Lower(a) + Lower(b)
  {
    assert |Lower(a + b)| == |Lower(a) + Lower(b)|;
    forall i | 0 <= i < |a + b| ensures Lower(a + b)[i] == (Lower(a) + Lower(b))[i] {
      if i < |a| {
        assert (a + b)[i] == a[i];
      } else {
        assert (a + b)[i] == b[i - |a|];
      }
    }
  }

  lemma LowerKeepsSpace(s: string)
    ensures AllSpace(s) ==> AllSpace(Lower(s))
    ensures Trimmed(s) ==> Trimmed(Lower(s))
  {
  }

  /** Lower-casing neither creates nor removes white space, so it commutes with trimming. */
  lemma LowerTrim(s: string)
    ensures Lower(Trim(s)) == Trim(Lower(s))
  {
    var pre, post := TrimParts(s);
    LowerAppend(pre, Trim(s));
    LowerAppend(pre + Trim(s), post);
    LowerKeepsSpace(pre);
    LowerKeepsSpace(post);
    LowerKeepsSpace(Trim(s));
    TrimUnique(Lower(s), Lower(pre), Lower(Trim(s)), Lower(post));
  }
}

=== FILE: wrappers.dfy ===
/** The optional value used wherever the store's TypeScript allows `null` or `undefined`. */
module Wrappers {

  datatype Option<+T> = None | Some(value: T) {

    /** The wrapped value, or `default` when there is none (the `??` operator). */
    function GetOr(default: T): T {
      match this
      case Some(v) => v
      case None => default
    }
  }
}
